=== FILE: README.md ===
# People counter: a Dafny model of the counting core and its control surface

The system counts people crossing the horizontal midline of a camera
image. A background worker (`PeopleCounterService`) reads frames. Every
`skip_frames`-th frame it runs a detector and starts one tracker per
confident "person" box; on the other frames it moves the existing
trackers. A centroid tracker turns the boxes into numbered objects. Each
object is counted at most once: as an exit (`totalUp`) when it moves up
and is above the midline, or as an entry (`totalDown`) when it moves down
and is below it. With `ALERT` set, every entry counted while occupancy
(`totalDown - totalUp`, right after that entry) is at or over `Threshold`
starts an e-mail alert; an alert is not only raised by the entry that
first reaches the threshold. After each
frame the counts are pushed to the web server and, when `Log` is set,
written to a CSV file.

Around this core sit:

- the FastAPI server, which edits the camera configuration and starts and
  stops the worker;
- three copies of the "is now inside the schedule?" test, used by the
  scheduler loop, the process monitor and the configuration window;
- the scheduler loop, which runs the daily report once at the end of the
  working day;
- two report generators, which sum the CSV and mail the summary.

The project models each of these as pure functions over immutable data:

| file | module | what it holds |
|---|---|---|
| `optional.dfy` | `Optional` | `Option` with `GetOr` (Python's `dict.get(k, default)`) |
| `json.dfy` | `Json` | JSON values, objects, Python truthiness, and a configuration file that is missing, malformed or loaded |
| `seqs.dfy` | `Seqs` | order-preserving filter and the subsequence relation |
| `timetext.dfy` | `TimeText` | `lstrip("0").rjust(5, "0")` on clock texts, and Python's code-point order on `str` |
| `schedule.dfy` | `Schedule` | the three schedule tests and how they relate |
| `scheduler_loop.dfy` | `SchedulerLoop` | one iteration of `main_loop`, and the once-per-day report flag |
| `monitor.dfy` | `Monitor` | `monitorear_estado`: launching and killing the scheduler |
| `config_gui.dfy` | `ConfigGui` | saving and loading the schedule form |
| `count_log.dfy` | `CountLog` | the CSV rows `log_counting_data` writes (`zip_longest` with `''`) |
| `counter.dfy` | `Counter` | detection filtering, direction, the crossing rule, one frame of the worker, and a run of frames |
| `control.dfy` | `Control` | `update_config`, the start/stop guards and `update_global_counts` |
| `report.dfy` | `Report` | the CSV summary folds of both generators, the send guards and what gets mailed |

Values from outside the program are parameters of the model:

- wall-clock time and the day name;
- whether a thread is alive;
- whether the model files exist;
- the detector's raw output and each tracker's reported box;
- the centroid tracker's object map;
- the outcome of the SMTP exchange.

Python behaviour is written out where it matters:

- `%` raises `ZeroDivisionError` when `skip_frames` is 0;
- `CLASSES[idx]` wraps negative indices and raises past the end;
- `str` comparison is code-point lexicographic;
- a value is falsy when it is `None`, `False`, `0`, `""`, empty or missing;
- `csv.QUOTE_ALL` makes every fill value `''` read back as an empty text;
- `int(" ")` raises, while `" ".strip()` is empty.

Behaviour of the code that the model makes explicit:

- The code raises one alert for every entry counted while occupancy is at
  or over `Threshold`, not one per crossing of it (`Counter.StepAlerts`).
- On a detection frame the centroid tracker's `update` is given an empty
  rect list, because the new trackers' boxes are not added to `rects`
  (`Counter.Step` ensures `r.rects == []` there). Only tracking frames
  pass boxes to it.
- `update_config` writes the lower-case keys `threshold`, `alert` and
  `log`. The worker reads `Threshold`, `ALERT` and `Log`, so the endpoint
  never changes the worker's alert or logging behaviour
  (`Control.UpdateConfigLeavesServiceKeys`).
- A missing camera URL raises a 400 inside a `try` whose `except
  Exception` turns it into a 500 (`Control.Start`).
- The worker always publishes "Detectando" or "Rastreando", never
  "Esperando".

## Model

| member | source | states |
|---|---|---|
| Counter.Detect | backend_conteo_personas/people_counter_service.py:209-222 | The detection loop fails exactly when some box over the confidence has a class index outside `CLASSES`; otherwise it keeps exactly the boxes over the confidence whose class is "person", in order |
| Counter.DetectAppend | backend_conteo_personas/people_counter_service.py:209-222 | Detection over two batches fails iff either fails, and otherwise keeps the first batch's boxes followed by the second's |
| Counter.CrossHasDirectionSign | backend_conteo_personas/people_counter_service.py:243-244 | The integer cross term has the sign of `centroid.y - mean(history.y)`, so the crossing rule needs no division |
| Counter.UpdateOne | backend_conteo_personas/people_counter_service.py:237-273 | One object's update: its history grows by the centroid (or starts with it); other objects are untouched; an exit or an entry bumps exactly its counter and timestamp list; an alert is added only on an entry at or over the threshold with `ALERT` set |
| Counter.UpdateOneCounted | backend_conteo_personas/people_counter_service.py:247-261 | An object is counted at most once: the counted flag is set exactly on a crossing, only for a not-yet-counted object, and the two counters rise by exactly one then |
| Counter.UpdateOneAlerts | backend_conteo_personas/people_counter_service.py:256-270 | One update adds at most as many alerts as entries it counts, keeps earlier alerts, and adds none with `ALERT` off |
| Counter.CountFrame | backend_conteo_personas/people_counter_service.py:237-273 | The frame loop never lowers a counter, keeps every object outside the frame, and adds exactly the frame's ids to the object map |
| Counter.CountFrameCounts | backend_conteo_personas/people_counter_service.py:237-262 | Across a frame, counted objects stay counted, only ids of the frame become counted, and the counters rise by the number of newly counted ids |
| Counter.CountFrameStamps | backend_conteo_personas/people_counter_service.py:249-262 | Each counted entry or exit appends one timestamp to its list, and earlier timestamps are kept |
| Counter.CountFrameAlerts | backend_conteo_personas/people_counter_service.py:256-270 | A frame adds at most one alert per entry, each at occupancy at or over the threshold, none with `ALERT` off, and keeps earlier alerts |
| Counter.CountedIdsNeverCountAgain | backend_conteo_personas/people_counter_service.py:247-261 | A frame whose objects are all already counted leaves both counters unchanged |
| Counter.FrameRaisesAtMostIds | backend_conteo_personas/people_counter_service.py:237-262 | One frame raises the total count by at most its number of distinct ids |
| Counter.TrackerRects | backend_conteo_personas/people_counter_service.py:223-233 | A tracking frame yields one box per tracker, each the tracker's reported position |
| Counter.Finish | backend_conteo_personas/people_counter_service.py:273-293 | After the crossing loop the frame count rises by one, the snapshot holds `(totalUp, totalDown, totalDown - totalUp, status)`, and a log is written iff both the worker's and the module's `Log` are set |
| Counter.Step | backend_conteo_personas/people_counter_service.py:171-293 | A failed read is retried; the frame crashes iff `skip_frames` is 0 or a detection frame hits a bad class index; a detection frame replaces the trackers by the kept boxes and passes no boxes on; a tracking frame passes each tracker's box; the height is fixed by the first frame |
| Counter.StepIsCountFrame | backend_conteo_personas/people_counter_service.py:235-273 | The counting part of a processed frame is the crossing loop against half the first frame's height, and the log holds the numbered rows of the new totals |
| Counter.StepCounts | backend_conteo_personas/people_counter_service.py:237-262 | Over a processed frame, the counters never decrease and rise by exactly the number of ids newly counted in that frame |
| Counter.StepAlerts | backend_conteo_personas/people_counter_service.py:256-270 | A processed frame sends at most one alert per entry it counts, each at or over `Threshold`, and none unless `ALERT` is set |
| Counter.InitialInv | backend_conteo_personas/people_counter_service.py:127-135 | A fresh service satisfies the invariant: counts equal counted ids, one timestamp per count |
| Counter.StepKeepsInv | backend_conteo_personas/people_counter_service.py:237-293 | Every processed frame preserves that invariant |
| Counter.RunKeepsCounts | backend_conteo_personas/people_counter_service.py:171-293 | Over any run of frames the counters never decrease, counted objects stay counted, and the invariant holds |
| CountLog.MaxLen | backend_conteo_personas/people_counter_service.py:73-74 | The longest column length bounds every column and is reached by one of them |
| CountLog.ZipLongest | backend_conteo_personas/people_counter_service.py:73-74 | `zip_longest` yields as many rows as the longest column, each with one cell per column |
| CountLog.UnzipRecoversColumn | backend_conteo_personas/people_counter_service.py:73-74 | Reading column `j` back out of the zipped rows gives the column as written followed by fill values |
| CountLog.Numbering | backend_conteo_personas/people_counter_service.py:286-291 | The simulated Entradas/Salidas lists hold 1, 2, ..., n |
| CountLog.LogRowsShape | backend_conteo_personas/people_counter_service.py:73-74 | The logged rows have four cells each, as many rows as the longest of the four lists, and each cell is the list's element or the fill value |
| Control.SetFields | backend_conteo_personas/main.py:38-46 | The fields a request sets are `url` always, and each optional field exactly when the client sent it, each holding the value the client sent |
| Control.UpdateConfig | backend_conteo_personas/main.py:83-98 | A missing file answers 404 and an unreadable one 500; otherwise the saved configuration keeps every key the request did not set and takes the request's value for every key it did |
| Control.UpdateConfigIdempotent | backend_conteo_personas/main.py:87-93 | Repeating the same update changes nothing further |
| Control.UpdateConfigLeavesServiceKeys | backend_conteo_personas/main.py:87-93 | The update never touches `Threshold`, `ALERT`, `Log` or `Email_Receive`, the keys the worker reads |
| Control.Start | backend_conteo_personas/main.py:132-173 | A live worker makes start a no-op; otherwise the stop signal is cleared; a falsy URL or missing model files answer 500 without a new thread; a truthy URL with the model files present always answers "Iniciando el conteo...", starts one thread and publishes "Iniciando..." |
| Control.FreshServer | backend_conteo_personas/main.py:24-35 | From the import-time globals, a stop answers "not active" and changes nothing, and a start with a truthy URL and the model files starts the first thread with zero counts |
| Control.Stop | backend_conteo_personas/main.py:175-198 | The intended stop: no live worker answers "not active"; otherwise the stop signal is set; a worker still alive after the join answers 500; else the status becomes "Detenido" and `last_update` the current time, and nothing else changes (occupancy and both counters included) |
| Control.StopAsWritten | backend_conteo_personas/main.py:182-191 | As written, stopping a live worker fails with 500 before any state changes |
| Control.StopAsWrittenNeverSignals | backend_conteo_personas/main.py:182-191 | As written, a live worker is never signalled, while the intended stop signals it and reports "Detenido" |
| Control.UpdateGlobalCounts | backend_conteo_personas/main.py:123-129 | The callback overwrites the four published fields and the update time, and nothing else in the server |
| Control.LastUpdateWins | backend_conteo_personas/main.py:123-129 | Of two successive pushes, the published counts are those of the second |
| Control.ServedCountsBalance | backend_conteo_personas/people_counter_service.py:275-279 | After a processed frame is pushed, the served counters are the counter state's totals and the served occupancy equals entries minus exits |
| Schedule.ScanRanges | scheduler_main.py:24-27 | The loop over ranges answers true iff some range holds the clock |
| Schedule.SchedulerInside | scheduler_main.py:16-27 | The scheduler's test is false on an inactive day and otherwise true iff some raw range holds the padded clock |
| Schedule.MonitorInside | main.py:9-23 | The monitor's test is false without a file and otherwise true iff the day is active and some raw range holds the clock |
| Schedule.GuiInside | config_gui.py:178-193 | The window's test is false without a file and otherwise true iff the day is active and some range with padded bounds holds the padded clock |
| Schedule.SchedulerAgreesWithMonitor | scheduler_main.py:19-27 | On a five-character clock the scheduler and the monitor always agree |
| Schedule.GuiAgreesOnPaddedBounds | config_gui.py:185-191 | When every bound is already five-character padded, the window agrees with the monitor |
| Schedule.NormaliseBounds | config_gui.py:188-189 | Padding a schedule keeps its days and replaces each bound by its padded form |
| Schedule.GuiIsRawCheckOfPaddedSchedule | config_gui.py:185-191 | The window's test on any schedule is the raw test on the schedule with padded bounds |
| Schedule.RawChecksRejectUnpaddedStart | main.py:20-23 | The raw tests reject 09:30 for a Monday range written "9:00"-"17:00" |
| Schedule.GuiAcceptsUnpaddedStart | config_gui.py:187-191 | The window accepts 09:30 for that same range |
| Schedule.UnpaddedStartDisagreement | scheduler_main.py:24-27 | The scheduler and the window disagree on that schedule and clock |
| Schedule.MaxEnd | scheduler_main.py:37 | The latest end bound is at least every range's end in string order |
| Schedule.DayFinished | scheduler_main.py:35-38 | The end-of-day test fails (no ranges) exactly when there are no ranges |
| TimeText.StripZeros | scheduler_main.py:19 | `lstrip("0")` removes only leading zeros |
| TimeText.PadZeros | scheduler_main.py:19 | `rjust(w, "0")` pads to width `w` with leading zeros and never shortens |
| TimeText.NormaliseKeepsClockWidth | scheduler_main.py:19 | Padding a five-character clock text returns it unchanged |
| TimeText.NormaliseShort | scheduler_main.py:58-60 | Any text of at most five characters pads to five characters |
| TimeText.NormaliseIdempotent | scheduler_main.py:58-60 | Padding twice is padding once |
| TimeText.LessIsFirstDifference | scheduler_main.py:25 | String order is decided by the first differing character, or by one text being a proper prefix of the other |
| TimeText.LessIrreflexive | scheduler_main.py:25 | No text is below itself |
| TimeText.LessTransitive | scheduler_main.py:25 | String order is transitive |
| TimeText.LessTotal | scheduler_main.py:25 | Any two texts are ordered or equal |
| TimeText.LessAsymmetric | scheduler_main.py:25 | String order is asymmetric |
| SchedulerLoop.Ends | scheduler_main.py:59-60 | The padded end bound of each range, in order |
| SchedulerLoop.ScanReport | scheduler_main.py:57-64 | The report loop launches the report once iff it has not been sent and the padded clock equals some padded end bound |
| SchedulerLoop.Step | scheduler_main.py:44-69 | An iteration launches the counter iff the schedule holds; on the same date the flag becomes set iff it was set or a report ran |
| SchedulerLoop.FlagClearsOnlyOnNewDate | scheduler_main.py:67-69 | The sent flag is cleared only when the date changes |
| SchedulerLoop.AtMostOneReportPerDay | scheduler_main.py:56-69 | While the date stays the same the report runs at most once, and never again once sent |
| Monitor.Boot | main.py:32-35 | Startup records the evaluation and never kills |
| Monitor.Step | main.py:37-44 | A tick records the new evaluation and kills iff the schedule went from inside to outside |
| Monitor.RunAlternates | main.py:37-44 | Over any run of the loop, launches minus kills equal the change in the inside flag, and the flag is the latest evaluation |
| Monitor.AtMostOneScheduler | main.py:31-45 | For a loop that keeps running, from startup: launches minus kills is 1 iff the latest evaluation is inside and 0 otherwise |
| Monitor.RunAsWritten | main.py:47-53 | As written the launcher exits right after spawning the window, so only the boot evaluation acts: one launch iff it was inside, and never a kill |
| Monitor.AsWrittenStrandsScheduler | main.py:47-53 | Booting inside and then leaving the schedule leaves the scheduler running as written, where the loop running for the window's life kills it |
| ConfigGui.DayNames | config_gui.py:11-14 | One English day name per checkbox, in week order |
| ConfigGui.ActiveDays | config_gui.py:122 | The saved days are the checked ones, in week order |
| ConfigGui.SavedRanges | config_gui.py:123-126 | The saved ranges are the rows with both bounds filled, in order, each as many times as it occurs among the rows |
| ConfigGui.WithReceiver | config_gui.py:138-146 | The general configuration gains `Email_Receive` and keeps its other keys |
| ConfigGui.SaveConfig | config_gui.py:121-158 | Saving writes the checked days, the complete rows and the receiver, and starts the scheduler iff the saved schedule holds now |
| ConfigGui.SaveOnUncheckedDayStops | config_gui.py:150-157 | Saving on a day that is not checked never starts the scheduler |
| ConfigGui.SaveRangesStable | config_gui.py:123-126 | Saving the saved ranges again gives the same schedule |
| ConfigGui.SaveRangesConcat | config_gui.py:123-126 | Adding rows saves the old ranges followed by the complete new ones |
| ConfigGui.LoadExisting | config_gui.py:161-176 | Loading without a file leaves the form alone; otherwise the form has as many rows as the longer of form and file, and rows past the file keep their text |
| Report.Fold | backend_conteo_personas/report_service.py:45-50 | Summing the rows fails iff some row has a cell that fails to parse |
| Report.FoldAppend | backend_conteo_personas/report_service.py:45-50 | Summing concatenated rows succeeds iff both parts do, and the totals add |
| Report.FoldSingle | backend_conteo_personas/report_service.py:45-50 | One row sums to its own cell values |
| Report.ServiceSummary | backend_conteo_personas/report_service.py:33-65 | The service summary is "no data" iff the file is missing, the error summary iff some cell is non-blank garbage, and otherwise totals that are the sums of the two columns (blank cells read as 0), with total = entries - exits |
| Report.GeneratorSummary | report_generator.py:23-38 | The generator's summary is "no data" iff the file is missing, crashes iff some cell is blank or garbage, and otherwise gives totals that are the sums of the two columns |
| Report.SummariesAgreeOnCleanFiles | report_generator.py:32-36 | On files whose cells are all numbers or empty, both generators produce the same summary |
| Report.FromLog | backend_conteo_personas/people_counter_service.py:79-83 | A logged number reads back as that number, a fill value as an empty cell, a timestamp as text that is not a number (`Garbage`, which `int()` rejects) |
| Report.ReadBack | backend_conteo_personas/people_counter_service.py:79-83 | Reading the log yields one row per logged row, from its Entradas and Salidas cells |
| Report.LoggedSummaryIsTriangular | backend_conteo_personas/report_service.py:45-50 | As written, a log of `d` entries and `u` exits is summarised as `d(d+1)/2` entries and `u(u+1)/2` exits |
| Report.TwoEntriesReportedAsThree | backend_conteo_personas/people_counter_service.py:286-291 | Two entries and no exits are reported as three entries |
| Report.CountedSummary | backend_conteo_personas/report_service.py:45-65 | The corrected summary is "no data" iff the file is missing, never crashes, and has total = entries - exits |
| Report.CountedSummaryMatchesCounter | backend_conteo_personas/report_service.py:45-65 | Counting the numbered cells gives exactly the counter's `totalDown` and `totalUp` |
| Report.SendDailyReport | backend_conteo_personas/report_service.py:87-158 | The service sends iff both configurations hold a sender, password and receiver, the CSV exists, and SMTP succeeds; the mail carries the summary and the CSV; the CSV is deleted exactly when it was sent |
| Report.ErrorSummaryIsSent | backend_conteo_personas/report_service.py:112-156 | A CSV with an unreadable cell is still mailed, carrying the error summary, and deleted |
| Report.EnviarCorreo | report_generator.py:60-98 | The generator raises iff a required key is missing, skips iff a credential is falsy, and delivers iff SMTP succeeds, with the CSV attached when present |
| Report.GeneratorMain | report_generator.py:100-102 | The generator script crashes when the summary does, and otherwise mails the summary |
| Report.GeneratorMailsWithoutData | report_generator.py:24-25 | Without a CSV the generator still mails a "no data" report, while the service sends nothing |

## Findings

| source | as written | input that shows it | evidently intended | confidence | as-written member | corrected member |
|---|---|---|---|---|---|---|
| backend_conteo_personas/people_counter_service.py:286-291 | The Entradas and Salidas columns hold `1..n`, and `report_service.py` sums them | two entries, no exits: the report says 3 entries | the report shows the number of entries and exits counted | high, not executed | Report.LoggedSummaryIsTriangular | Report.CountedSummaryMatchesCounter |
| backend_conteo_personas/main.py:185 | `stop_counting` calls `logger.info`, but `logger` is never defined in that module | a stop request while the worker is alive: NameError, answer 500, the worker keeps running | the worker is signalled, joined, and the status becomes "Detenido" | high, not executed | Control.StopAsWrittenNeverSignals | Control.Stop |
| scheduler_main.py:24-27 | The scheduler (and `main.py:20-23`) compares the raw bounds, while the window pads them | range "9:00"-"17:00" on Monday at 09:30: the window starts the scheduler, which then finds itself outside | all three tests pad the bounds as the window does | medium, not executed | Schedule.UnpaddedStartDisagreement | Schedule.GuiIsRawCheckOfPaddedSchedule |
| main.py:47-53 | `monitorear_estado` runs in a daemon thread; the main thread only `Popen`s the window and returns, so the interpreter exits and kills the loop | boot inside the schedule, then leave it: the scheduler launched at boot is never killed | the loop runs for the life of the window, launching and killing on each change | medium, not executed | Monitor.AsWrittenStrandsScheduler | Monitor.AtMostOneScheduler |

In the first finding the counter itself is right; only the log format and
the summary disagree. `Report.CountedSummary` counts the numbered cells
instead of adding them. In the third finding, the window's own save form
accepts any text, so unpadded bounds are reachable. Both the window and
`SchedulerLoop.ScanReport` pad bounds; `Schedule.GuiIsRawCheckOfPaddedSchedule`
states that padding the stored bounds makes the raw checks agree with the
window. In the fourth finding, the `Monitor.Run` lemmas describe the loop as
if it kept running; `Monitor.RunAsWritten` is what the launcher does as
written.

## Left out

- The video pipeline: frame capture, resizing, the Caffe detector, the dlib trackers and the centroid tracker's matching. Their outputs (detections, reported boxes, the object map) are inputs of `Counter.Step`.
- The scaling of detector boxes to pixels is floating point; boxes are taken as already scaled integers.
- `run()`'s camera opening and its initial `stop_event.set()` on failure. These are I/O before the frame loop.
- The `Thread` option (`ThreadingClass`) is left out. It changes only how frames are read.
- `send_mail_alert` and the Mailer are left out; e-mail delivery is I/O. An alert is modelled as the occupancy right after the entry that raised it. The call itself passes `Email_Receive` and the configured `Threshold`, which the model does not record.
- Threads, locks and the timing of `join(timeout=10)` are left out. A thread's liveness is a parameter.
- Monitor.Run: treats the monitor loop as running indefinitely, one evaluation per pass. The launcher's early exit is covered separately by `Monitor.RunAsWritten`. The race between the daemon thread's first passes and interpreter exit is not modelled.
- The `/config` and `/schedule` GET endpoints, `update_schedule_config`, `/get_counts` and `/generate_report` are not modelled. They read or write files verbatim and carry no logic beyond that.
- The HTML of the summaries and the MIME structure of the mails are left out. The summary is modelled as its three numbers or its error kind.
- Date formatting in mail subjects and attachment names is left out.
- `int()` parsing is left out: a cell is a number, empty, blank, or text that does not parse.
- The schedule file is modelled as a well-formed record. The `KeyError`s of a file lacking `active_days`, `time_ranges` or a bound are left out.
- `save_config` on a malformed `config.json` is left out; the model takes an existing file to be readable.
- The scheduler's `timer` flag and `time.sleep` are left out. They affect pacing only.
- `subprocess` and `pkill` calls are modelled as actions (launch, kill, run report), not as processes.

=== FILE: config_gui.dfy ===
/** The configuration window with its widgets abstracted away: the checked
    day boxes, the text of each range row and the e-mail field are plain
    values. Models saving, loading and the window's own schedule check. */
module ConfigGui {
  import opened Optional
  import opened Json
  import opened Seqs
  import opened Schedule

  /** `DAYS`: (label shown, English day name used as key), in display order. */
  const Days: seq<(string, string)> := [
    ("Lunes", "Monday"), ("Martes", "Tuesday"), ("Miércoles", "Wednesday"),
    ("Jueves", "Thursday"), ("Viernes", "Friday"), ("Sábado", "Saturday"), ("Domingo", "Sunday")]

  /** The keys of the checkbox map, in insertion (display) order. */
  function DayNames(): (r: seq<string>)
    ensures |r| == |Days|
    ensures forall i :: 0 <= i < |Days| ==> r[i] == Days[i].1
  {
    seq(|Days|, i requires 0 <= i < |Days| => Days[i].1)
  }

  /** The window's editable state: the names whose box is checked, the
      (start, end) text of each range row, and the e-mail field. */
  datatype Form = Form(checked: set<string>, rows: seq<TimeRange>, email: string)

  /** A row is saved only when both its texts are non-empty. */
  predicate Complete(r: TimeRange) {
    r.start != "" && r.end != ""
  }

  /** `[day for day, cb in day_checkboxes.items() if cb.isChecked()]`: the
      checked days, in `DAYS` order. */
  function ActiveDays(checked: set<string>): (r: seq<string>)
    ensures forall i :: 0 <= i < |r| ==> r[i] in DayNames() && r[i] in checked
    ensures forall i :: 0 <= i < |Days| && Days[i].1 in checked ==> Days[i].1 in r
    ensures IsSubseq(r, DayNames())
  {
    Filter(DayNames(), d => d in checked)
  }

  /** The saved ranges: the complete rows, in row order. */
  function SavedRanges(rows: seq<TimeRange>): (r: seq<TimeRange>)
    ensures forall i :: 0 <= i < |r| ==> r[i] in rows && Complete(r[i])
    ensures forall i :: 0 <= i < |rows| && Complete(rows[i]) ==> rows[i] in r
    ensures IsSubseq(r, rows)
    ensures forall x :: multiset(r)[x] == if Complete(x) then multiset(rows)[x] else 0
  {
    assert forall x :: multiset(Filter(rows, Complete))[x] == if Complete(x) then multiset(rows)[x] else 0 by {
      forall x {
        FilterMultiplicity(rows, Complete, x);
      }
    }
    Filter(rows, Complete)
  }

  /** The general config after saving: loaded (or empty when the file is
      missing) with `Email_Receive` set to the e-mail field. */
  function WithReceiver(general: Option<Object>, email: string): (r: Object)
    ensures "Email_Receive" in r && r["Email_Receive"] == Str(email)
    ensures general.Some? ==> forall k :: k in general.value && k != "Email_Receive" ==>
      k in r && r[k] == general.value[k]
    ensures forall k :: k in r ==> k == "Email_Receive" || (general.Some? && k in general.value)
  {
    general.GetOr(map[])["Email_Receive" := Str(email)]
  }

  /** What saving writes: the schedule file, the updated general config, and
      whether the scheduler is then started (otherwise it is killed). */
  datatype Saved = Saved(schedule: ScheduleConfig, general: Object, startScheduler: bool)

  /** `save_config`. `general` is the general config file (`None` when
      missing); `day`/`clock` are the moment of saving. The window check that
      decides between starting and killing the scheduler reads the schedule
      just written. */
  function SaveConfig(form: Form, general: Option<Object>, day: string, clock: string): (r: Saved)
    ensures r.schedule == ScheduleConfig(ActiveDays(form.checked), SavedRanges(form.rows), form.email)
    ensures r.general == WithReceiver(general, form.email)
    ensures r.startScheduler == GuiInside(Some(r.schedule), day, clock)
  {
    var schedule := ScheduleConfig(ActiveDays(form.checked), SavedRanges(form.rows), form.email);
    Saved(schedule, WithReceiver(general, form.email), GuiInside(Some(schedule), day, clock))
  }

  /** Saving on a day whose box is unchecked always stops the scheduler,
      whatever the ranges say. */
  lemma SaveOnUncheckedDayStops(form: Form, general: Option<Object>, day: string, clock: string)
    requires day !in form.checked
    ensures !SaveConfig(form, general, day, clock).startScheduler
  {
  }

  /** Saving the rows of a form a second time writes the same ranges. */
  lemma SaveRangesStable(form: Form, general: Option<Object>, day: string, clock: string)
    ensures var s := SaveConfig(form, general, day, clock);
      SaveConfig(form.(rows := s.schedule.timeRanges), general, day, clock).schedule == s.schedule
  {
    FilterIdempotent(form.rows, Complete);
  }

  /** Saved ranges of two blocks of rows are the saved ranges of each block,
      in order. */
  lemma SaveRangesConcat(form: Form, more: seq<TimeRange>, general: Option<Object>, day: string, clock: string)
    ensures SaveConfig(form.(rows := form.rows + more), general, day, clock).schedule.timeRanges ==
      SaveConfig(form, general, day, clock).schedule.timeRanges + Filter(more, Complete)
  {
    FilterAppend(form.rows, more, Complete);
  }

  /** `load_existing_config`: with a saved schedule, checks every saved day
      that is a key of the checkbox map, writes saved range `i` into row `i`
      (adding rows as needed) and fills the e-mail field. */
  method LoadExisting(saved: Option<ScheduleConfig>, form: Form) returns (r: Form)
    ensures saved.None? ==> r == form
    ensures saved.Some? ==> r.checked == form.checked + (set d | d in saved.value.activeDays && d in DayNames())
    ensures saved.Some? ==> |r.rows| == (if |saved.value.timeRanges| > |form.rows| then |saved.value.timeRanges| else |form.rows|)
    ensures saved.Some? ==> forall i :: 0 <= i < |saved.value.timeRanges| ==> r.rows[i] == saved.value.timeRanges[i]
    ensures saved.Some? ==> forall i :: |saved.value.timeRanges| <= i < |form.rows| ==> r.rows[i] == form.rows[i]
    ensures saved.Some? ==> r.email == saved.value.receiver
  {
    if saved.None? {
      return form;
    }
    var cfg := saved.value;
    var names := DayNames();
    var checked := form.checked;
    var k := 0;
    while k < |cfg.activeDays|
      invariant 0 <= k <= |cfg.activeDays|
      invariant checked == form.checked + (set d | d in cfg.activeDays[..k] && d in names)
    {
      var day := cfg.activeDays[k];
      if day in names {
        checked := checked + {day};
      }
      assert cfg.activeDays[..k + 1] == cfg.activeDays[..k] + [day];
      k := k + 1;
    }
    assert cfg.activeDays[..k] == cfg.activeDays;
    var rows := form.rows;
    var idx := 0;
    while idx < |cfg.timeRanges|
      invariant 0 <= idx <= |cfg.timeRanges|
      invariant |rows| == if idx > |form.rows| then idx else |form.rows|
      invariant forall i :: 0 <= i < idx ==> rows[i] == cfg.timeRanges[i]
      invariant forall i :: idx <= i < |form.rows| ==> rows[i] == form.rows[i]
    {
      if idx < |rows| {
        rows := rows[idx := cfg.timeRanges[idx]];
      } else {
        rows := rows + [TimeRange("", "")];
        rows := rows[idx := cfg.timeRanges[idx]];
      }
      idx := idx + 1;
    }
    r := Form(checked, rows, cfg.receiver);
  }
}

=== FILE: control.dfy ===
/** The control surface of the backend: the config update endpoint, the
    start/stop endpoints and the snapshot callback. Worker liveness, the
    outcome of the join, file contents and the clock are inputs. */
module Control {
  import opened Optional
  import opened Json
  import Counter

  // ---- POST /config ----

  /** The request body: `url` is required; every other field is `None` when
      the client did not send it (`exclude_unset=True` drops it). */
  datatype CameraConfig = CameraConfig(
    url: string,
    threshold: Option<int>,
    alert: Option<bool>,
    log: Option<bool>,
    timer: Option<bool>,
    skipFrames: Option<int>,
    confidence: Option<real>)

  /** An HTTP error status. */
  datatype HttpError = HttpError(status: int)

  datatype UpdateResult = Updated(config: Object) | Rejected(error: HttpError)

  /** The value the client set for field `k`, if any. */
  function Field(req: CameraConfig, k: string): Option<Value> {
    if k == "url" then Some(Str(req.url))
    else if k == "threshold" then (if req.threshold.Some? then Some(Int(req.threshold.value)) else None)
    else if k == "alert" then (if req.alert.Some? then Some(Bool(req.alert.value)) else None)
    else if k == "log" then (if req.log.Some? then Some(Bool(req.log.value)) else None)
    else if k == "timer" then (if req.timer.Some? then Some(Bool(req.timer.value)) else None)
    else if k == "skip_frames" then (if req.skipFrames.Some? then Some(Int(req.skipFrames.value)) else None)
    else if k == "confidence" then (if req.confidence.Some? then Some(Real(req.confidence.value)) else None)
    else None
  }

  /** `new_config.dict(exclude_unset=True)`: the fields the client set, under
      the request model's field names. */
  function SetFields(req: CameraConfig): (m: Object)
    ensures "url" in m && m["url"] == Str(req.url)
    ensures "threshold" in m <==> req.threshold.Some?
    ensures "alert" in m <==> req.alert.Some?
    ensures "log" in m <==> req.log.Some?
    ensures "timer" in m <==> req.timer.Some?
    ensures "skip_frames" in m <==> req.skipFrames.Some?
    ensures "confidence" in m <==> req.confidence.Some?
    ensures req.threshold.Some? ==> m["threshold"] == Int(req.threshold.value)
    ensures req.alert.Some? ==> m["alert"] == Bool(req.alert.value)
    ensures req.log.Some? ==> m["log"] == Bool(req.log.value)
    ensures req.timer.Some? ==> m["timer"] == Bool(req.timer.value)
    ensures req.skipFrames.Some? ==> m["skip_frames"] == Int(req.skipFrames.value)
    ensures req.confidence.Some? ==> m["confidence"] == Real(req.confidence.value)
    ensures m.Keys <= FieldNames
  {
    map k | k in FieldNames && Field(req, k).Some? :: Field(req, k).value
  }

  /** The request model's field names. */
  const FieldNames: set<string> := {"url", "threshold", "alert", "log", "timer", "skip_frames", "confidence"}

  /** `update_config`: a missing file is a 404, an unparsable one a 500;
      otherwise `current_config.update(set fields)`. */
  function UpdateConfig(file: ConfigFile, req: CameraConfig): (r: UpdateResult)
    ensures file.Missing? ==> r == Rejected(HttpError(404))
    ensures file.Malformed? ==> r == Rejected(HttpError(500))
    ensures file.Loaded? ==> r.Updated?
    ensures r.Updated? ==> r.config.Keys == file.contents.Keys + SetFields(req).Keys
    ensures r.Updated? ==> forall k :: k in SetFields(req) ==> r.config[k] == SetFields(req)[k]
    ensures r.Updated? ==> forall k :: k in file.contents && k !in SetFields(req) ==>
      r.config[k] == file.contents[k]
  {
    match file
    case Missing => Rejected(HttpError(404))
    case Malformed => Rejected(HttpError(500))
    case Loaded(current) => Updated(current + SetFields(req))
  }

  /** Sending the same request twice leaves the file as sending it once. */
  lemma UpdateConfigIdempotent(current: Object, req: CameraConfig)
    ensures var once := UpdateConfig(Loaded(current), req);
      UpdateConfig(Loaded(once.config), req) == once
  {
    var once := UpdateConfig(Loaded(current), req).config;
    assert once + SetFields(req) == once;
  }

  /** The endpoint writes lower-case keys, while the counting service reads
      `Threshold`, `ALERT` and `Log`: those keys never change through it. */
  lemma UpdateConfigLeavesServiceKeys(current: Object, req: CameraConfig)
    ensures var r := UpdateConfig(Loaded(current), req).config;
      forall k :: k in {"Threshold", "ALERT", "Log", "Email_Receive"} ==>
        (k in r <==> k in current) && (k in current ==> r[k] == current[k])
  {
    var set' := SetFields(req);
    assert "Threshold" !in set' && "ALERT" !in set' && "Log" !in set' && "Email_Receive" !in set';
  }

  // ---- the shared snapshot and the worker ----

  /** `current_counts`. */
  datatype Counts = Counts(totalUp: int, totalDown: int, totalInside: int, status: string, lastUpdate: Option<string>)

  /** A counting service as constructed: its camera URL and config. */
  datatype Service = Service(url: Value, config: Object)

  /** The module's globals: whether `counting_thread` is set, how many
      threads have been started so far, the stop event, the last service
      instance, and the shared counts. */
  datatype Server = Server(
    hasThread: bool,
    threadsStarted: nat,
    stopSet: bool,
    service: Option<Service>,
    counts: Counts)

  /** The globals at import time: no thread, nothing started, the event
      clear, no service, zero counts with status "Inactivo". */
  function InitialServer(): Server {
    Server(false, 0, false, None, Counts(0, 0, 0, "Inactivo", None))
  }

  datatype Reply = Ok(message: string) | Failed(error: HttpError)

  const AlreadyRunning: string := "El conteo de personas ya está en marcha."
  const Starting: string := "Iniciando el conteo de personas..."
  const NotActive: string := "El conteo de personas no está activo."
  const StoppedMessage: string := "Conteo de personas detenido."

  /** `start_counting`. `alive` is `counting_thread.is_alive()`; `fileConfig`
      is what `get_current_config_from_file` returns (`{}` on a missing or
      broken file); `modelFiles` says whether the detector files exist (the
      service constructor raises `FileNotFoundError` otherwise); `now` is the
      timestamp. */
  function Start(s: Server, alive: bool, fileConfig: Object, modelFiles: bool, now: string): (r: (Server, Reply))
    ensures s.hasThread && alive ==> r == (s, Ok(AlreadyRunning))
    ensures !(s.hasThread && alive) ==> !r.0.stopSet
    ensures !(s.hasThread && alive) && !HasTruthy(fileConfig, "url") ==>
      r == (s.(stopSet := false), Failed(HttpError(500)))
    ensures !(s.hasThread && alive) && HasTruthy(fileConfig, "url") && !modelFiles ==>
      r == (s.(stopSet := false), Failed(HttpError(500)))
    ensures r.1.Ok? && r.1 != Ok(AlreadyRunning) ==>
      r.0.hasThread && r.0.threadsStarted == s.threadsStarted + 1 &&
      r.0.service == Some(Service(fileConfig["url"], fileConfig)) &&
      r.0.counts == s.counts.(status := "Iniciando...", lastUpdate := Some(now))
    ensures !(s.hasThread && alive) && HasTruthy(fileConfig, "url") && modelFiles ==> r.1 == Ok(Starting)
    ensures r.0.threadsStarted != s.threadsStarted ==> r.1 == Ok(Starting)
  {
    if s.hasThread && alive then (s, Ok(AlreadyRunning))
    else
      var cleared := s.(stopSet := false);
      if !HasTruthy(fileConfig, "url") then
        // the 400 raised here is caught by the generic handler and re-raised as a 500
        (cleared, Failed(HttpError(500)))
      else if !modelFiles then
        (cleared, Failed(HttpError(500)))
      else
        var service := Service(fileConfig["url"], fileConfig);
        var counts := s.counts.(status := "Iniciando...", lastUpdate := Some(now));
        (cleared.(hasThread := true, threadsStarted := s.threadsStarted + 1, service := Some(service), counts := counts),
         Ok(Starting))
  }

  /** `stop_counting` as intended. `alive` is `is_alive()` before the
      request and `aliveAfterJoin` its value after `join(timeout=10)`. */
  function Stop(s: Server, alive: bool, aliveAfterJoin: bool, now: string): (r: (Server, Reply))
    ensures !(s.hasThread && alive) ==> r == (s, Ok(NotActive))
    ensures s.hasThread && alive ==> r.0.stopSet
    ensures s.hasThread && alive && aliveAfterJoin ==> r == (s.(stopSet := true), Failed(HttpError(500)))
    ensures s.hasThread && alive && !aliveAfterJoin ==>
      r == (s.(stopSet := true, counts := s.counts.(status := "Detenido", lastUpdate := Some(now))), Ok(StoppedMessage))
    ensures r.0.threadsStarted == s.threadsStarted && r.0.service == s.service && r.0.hasThread == s.hasThread
    ensures r.0.counts.totalUp == s.counts.totalUp && r.0.counts.totalDown == s.counts.totalDown
  {
    if !(s.hasThread && alive) then (s, Ok(NotActive))
    else
      var signalled := s.(stopSet := true);
      if aliveAfterJoin then (signalled, Failed(HttpError(500)))
      else (signalled.(counts := s.counts.(status := "Detenido", lastUpdate := Some(now))), Ok(StoppedMessage))
  }

  /** `stop_counting` as written: the module logs through a `logger` it
      never defines, so with a live worker the first log call raises
      `NameError` before the stop event is set. The framework answers 500. */
  function StopAsWritten(s: Server, alive: bool): (r: (Server, Reply))
    ensures !(s.hasThread && alive) ==> r == (s, Ok(NotActive))
    ensures s.hasThread && alive ==> r == (s, Failed(HttpError(500)))
  {
    if !(s.hasThread && alive) then (s, Ok(NotActive))
    else (s, Failed(HttpError(500)))
  }

  /** With a live worker that would exit when asked, the written endpoint
      never signals it and leaves the status as it was; the intended one
      signals it and reports "Detenido". */
  lemma StopAsWrittenNeverSignals(s: Server, now: string)
    requires s.hasThread && !s.stopSet
    ensures !StopAsWritten(s, true).0.stopSet && StopAsWritten(s, true).0.counts == s.counts
    ensures Stop(s, true, false, now).0.stopSet && Stop(s, true, false, now).0.counts.status == "Detenido"
  {
  }

  /** `update_global_counts`: the callback the worker calls every frame. */
  function UpdateGlobalCounts(s: Server, totalUp: int, totalDown: int, totalInside: int, status: string, now: string): (r: Server)
    ensures r.counts.totalUp == totalUp && r.counts.totalDown == totalDown
    ensures r.counts.totalInside == totalInside && r.counts.status == status
    ensures r.counts.lastUpdate == Some(now)
    ensures r.hasThread == s.hasThread && r.threadsStarted == s.threadsStarted
    ensures r.stopSet == s.stopSet && r.service == s.service
  {
    s.(counts := Counts(totalUp, totalDown, totalInside, status, Some(now)))
  }

  /** The last callback wins: two updates in a row leave exactly the second
      one's values. */
  lemma LastUpdateWins(s: Server, a: Counts, b: Counts, t1: string, t2: string)
    ensures var s1 := UpdateGlobalCounts(s, a.totalUp, a.totalDown, a.totalInside, a.status, t1);
      UpdateGlobalCounts(s1, b.totalUp, b.totalDown, b.totalInside, b.status, t2) ==
      UpdateGlobalCounts(s, b.totalUp, b.totalDown, b.totalInside, b.status, t2)
  {
  }

  /** The worker pushes each processed frame's snapshot through the callback,
      so the served occupancy is always entries minus exits of the counter
      state that produced it. */
  lemma ServedCountsBalance(srv: Server, c: Counter.CounterState, cfg: Counter.ServiceConfig,
                            input: Counter.FrameInput, moduleLog: bool, now: string)
    ensures var o := Counter.Step(c, cfg, input, moduleLog);
      o.Processed? ==>
        var r := UpdateGlobalCounts(srv, o.snapshot.totalUp, o.snapshot.totalDown, o.snapshot.totalInside, o.snapshot.status, now);
        r.counts.totalUp == o.next.totalUp && r.counts.totalDown == o.next.totalDown &&
        r.counts.totalInside == r.counts.totalDown - r.counts.totalUp
  {
  }

  /** Before any start, a stop request is a no-op answering "not active",
      and a start with a truthy url and the model files present starts the
      first thread and publishes "Iniciando...". */
  lemma FreshServer(alive: bool, aliveAfterJoin: bool, fileConfig: Object, now: string)
    requires HasTruthy(fileConfig, "url")
    ensures Stop(InitialServer(), alive, aliveAfterJoin, now) == (InitialServer(), Ok(NotActive))
    ensures StopAsWritten(InitialServer(), alive) == (InitialServer(), Ok(NotActive))
    ensures var (s, reply) := Start(InitialServer(), alive, fileConfig, true, now);
      reply == Ok(Starting) && s.hasThread && s.threadsStarted == 1 &&
      s.counts.status == "Iniciando..." && s.counts.totalUp == 0 && s.counts.totalDown == 0
  {
  }
}

=== FILE: count_log.dfy ===
/** The rows `log_counting_data` writes: the four columns (entry numbers,
    entry times, exit numbers, exit times) zipped with
    `zip_longest(..., fillvalue='')`. */
module CountLog {

  /** One CSV cell as written: an integer, a timestamp text, or the fill
      value `''`. */
  datatype LogCell = Num(n: int) | Stamp(text: string) | Fill

  /** The length of the longest column (0 for no columns). */
  function MaxLen(cols: seq<seq<LogCell>>): (m: nat)
    ensures forall j :: 0 <= j < |cols| ==> |cols[j]| <= m
    ensures cols == [] ==> m == 0
    ensures cols != [] ==> exists j :: 0 <= j < |cols| && |cols[j]| == m
  {
    if cols == [] then 0
    else
      var rest := MaxLen(cols[1..]);
      assert forall j :: 1 <= j < |cols| ==> cols[j] == cols[1..][j - 1];
      if |cols[0]| >= rest then |cols[0]| else rest
  }

  /** `zip_longest(*cols, fillvalue='')` as a list of rows. */
  function ZipLongest(cols: seq<seq<LogCell>>): (rows: seq<seq<LogCell>>)
    ensures |rows| == MaxLen(cols)
    ensures forall i :: 0 <= i < |rows| ==> |rows[i]| == |cols|
  {
    seq(MaxLen(cols), i requires 0 <= i => seq(|cols|, j requires 0 <= j < |cols| => if i < |cols[j]| then cols[j][i] else Fill))
  }

  /** Column `j` read back out of a table of rows. */
  function Column(rows: seq<seq<LogCell>>, j: nat): (c: seq<LogCell>)
    requires forall i :: 0 <= i < |rows| ==> j < |rows[i]|
    ensures |c| == |rows|
  {
    seq(|rows|, i requires 0 <= i < |rows| => rows[i][j])
  }

  /** `k` copies of the fill value. */
  function Fills(k: nat): (r: seq<LogCell>)
    ensures |r| == k
    ensures forall i :: 0 <= i < k ==> r[i] == Fill
  {
    seq(k, _ => Fill)
  }

  /** Unzipping: every column comes back as written, padded with fill values
      to the longest column's length. */
  lemma UnzipRecoversColumn(cols: seq<seq<LogCell>>, j: nat)
    requires j < |cols|
    ensures Column(ZipLongest(cols), j) == cols[j] + Fills(MaxLen(cols) - |cols[j]|)
  {
  }

  /** `list(range(1, n + 1))`. */
  function Numbering(n: nat): (r: seq<LogCell>)
    ensures |r| == n
    ensures forall i :: 0 <= i < n ==> r[i] == Num(i + 1)
  {
    seq(n, i => Num(i + 1))
  }

  function Stamps(ts: seq<string>): (r: seq<LogCell>)
    ensures |r| == |ts|
    ensures forall i :: 0 <= i < |ts| ==> r[i] == Stamp(ts[i])
  {
    seq(|ts|, i requires 0 <= i < |ts| => Stamp(ts[i]))
  }

  /** The data rows the counting service writes each frame (after the
      header): entry numbers `1..totalDown`, entry times, exit numbers
      `1..totalUp`, exit times. */
  function LogRows(totalDown: nat, moveIn: seq<string>, totalUp: nat, moveOut: seq<string>): seq<seq<LogCell>> {
    ZipLongest([Numbering(totalDown), Stamps(moveIn), Numbering(totalUp), Stamps(moveOut)])
  }

  function Max4(a: nat, b: nat, c: nat, d: nat): nat {
    var ab := if a >= b then a else b;
    var cd := if c >= d then c else d;
    if ab >= cd then ab else cd
  }

  /** The log has as many rows as its longest column, four cells each, and
      every shorter column is padded with `''`. */
  lemma LogRowsShape(totalDown: nat, moveIn: seq<string>, totalUp: nat, moveOut: seq<string>)
    ensures var rows := LogRows(totalDown, moveIn, totalUp, moveOut);
      |rows| == Max4(totalDown, |moveIn|, totalUp, |moveOut|) &&
      (forall i :: 0 <= i < |rows| ==> |rows[i]| == 4) &&
      (forall i :: 0 <= i < |rows| ==> rows[i][0] == (if i < totalDown then Num(i + 1) else Fill)) &&
      (forall i :: 0 <= i < |rows| ==> rows[i][1] == (if i < |moveIn| then Stamp(moveIn[i]) else Fill)) &&
      (forall i :: 0 <= i < |rows| ==> rows[i][2] == (if i < totalUp then Num(i + 1) else Fill)) &&
      (forall i :: 0 <= i < |rows| ==> rows[i][3] == (if i < |moveOut| then Stamp(moveOut[i]) else Fill))
  {
    var cols := [Numbering(totalDown), Stamps(moveIn), Numbering(totalUp), Stamps(moveOut)];
    var m := MaxLen(cols);
    assert |cols[0]| == totalDown && |cols[1]| == |moveIn| && |cols[2]| == totalUp && |cols[3]| == |moveOut|;
    assert m == Max4(totalDown, |moveIn|, totalUp, |moveOut|);
  }
}

=== FILE: counter.dfy ===
/** The per-frame step of `PeopleCounterService.run`: choose detection or
    tracking, filter detections, apply the once-only crossing rule to the
    centroid tracker's output, publish the snapshot, start alerts and write
    the log. Video, the neural detector, the correlation trackers and the
    centroid tracker are inputs. */
module Counter {
  import opened Optional
  import opened CountLog
  import opened Seqs

  datatype Box = Box(startX: int, startY: int, endX: int, endY: int)

  /** One row of the detector output: class index, confidence, and the box
      already scaled to pixels. */
  datatype Detection = Detection(classIndex: int, confidence: real, box: Box)

  datatype Centroid = Centroid(x: int, y: int)

  /** `TrackableObject`: the centroid history and the one-shot flag. */
  datatype Trackable = Trackable(centroids: seq<Centroid>, counted: bool)

  /** The service's config dict; an absent key is `None` and reads as its
      `config.get` default. */
  datatype ServiceConfig = ServiceConfig(
    skipFrames: Option<int>,
    confidence: Option<real>,
    threshold: Option<int>,
    alert: Option<bool>,
    log: Option<bool>)

  const DefaultSkipFrames: int := 30
  const DefaultConfidence: real := 0.4
  const DefaultThreshold: int := 10

  /** `self.CLASSES`, the MobileNet-SSD labels. */
  const Classes: seq<string> := [
    "fondo", "aeroplane", "bicycle", "bird", "boat",
    "bottle", "bus", "car", "cat", "chair", "cow", "diningtable",
    "dog", "horse", "motorbike", "person", "pottedplant", "sheep",
    "sofa", "train", "tvmonitor"]

  /** `self.CLASSES[idx]` with Python indexing: negative indices count from
      the end; anything else raises `IndexError` (`None` here). */
  function ClassName(idx: int): Option<string> {
    if 0 <= idx < |Classes| then Some(Classes[idx])
    else if -|Classes| <= idx < 0 then Some(Classes[|Classes| + idx])
    else None
  }

  /** A detection that passes both tests and seeds a tracker. */
  predicate Kept(d: Detection, conf: real) {
    d.confidence > conf && ClassName(d.classIndex) == Some("person")
  }

  /** A detection over the confidence threshold whose class lookup raises. */
  predicate Raises(d: Detection, conf: real) {
    d.confidence > conf && ClassName(d.classIndex).None?
  }

  /** The detection loop: one box per kept detection, in detector order,
      or `None` when a class lookup raises (the exception ends `run`). */
  function Detect(dets: seq<Detection>, conf: real): (r: Option<seq<Box>>)
    ensures r.None? <==> exists i :: 0 <= i < |dets| && Raises(dets[i], conf)
    ensures r.Some? ==> r.value == KeptBoxes(dets, conf)
  {
    if dets == [] then Some([])
    else if Raises(dets[0], conf) then None
    else
      var rest := Detect(dets[1..], conf);
      assert forall i :: 1 <= i < |dets| ==> dets[i] == dets[1..][i - 1];
      if rest.None? then None
      else if Kept(dets[0], conf) then
        KeptBoxesCons(dets, conf);
        Some([dets[0].box] + rest.value)
      else
        KeptBoxesCons(dets, conf);
        rest
  }
  function KeepTest(conf: real): Detection -> bool {
    d => Kept(d, conf)
  }
  function Boxes(ds: seq<Detection>): (r: seq<Box>)
    ensures |r| == |ds|
    ensures forall i :: 0 <= i < |ds| ==> r[i] == ds[i].box
  {
    seq(|ds|, i requires 0 <= i < |ds| => ds[i].box)
  }
  function KeptBoxes(dets: seq<Detection>, conf: real): seq<Box> {
    Boxes(Filter(dets, KeepTest(conf)))
  }
  lemma KeptBoxesCons(dets: seq<Detection>, conf: real)
    requires dets != []
    ensures KeptBoxes(dets, conf) ==
      (if Kept(dets[0], conf) then [dets[0].box] else []) + KeptBoxes(dets[1..], conf)
  {
    var k := KeepTest(conf);
    assert Filter(dets, k) == (if k(dets[0]) then [dets[0]] else []) + Filter(dets[1..], k);
  }

  lemma KeptBoxesAppend(a: seq<Detection>, b: seq<Detection>, conf: real)
    ensures KeptBoxes(a + b, conf) == KeptBoxes(a, conf) + KeptBoxes(b, conf)
  {
    FilterAppend(a, b, KeepTest(conf));
    assert Boxes(Filter(a, KeepTest(conf)) + Filter(b, KeepTest(conf))) ==
      Boxes(Filter(a, KeepTest(conf))) + Boxes(Filter(b, KeepTest(conf)));
  }

  /** Some detection of `a + b` raises iff one of `a` or one of `b` does. */
  predicate SomeRaises(dets: seq<Detection>, conf: real) {
    exists i :: 0 <= i < |dets| && Raises(dets[i], conf)
  }

  lemma RaisesAppend(a: seq<Detection>, b: seq<Detection>, conf: real)
    ensures SomeRaises(a + b, conf) <==> SomeRaises(a, conf) || SomeRaises(b, conf)
  {
    if SomeRaises(a + b, conf) {
      var i :| 0 <= i < |a + b| && Raises((a + b)[i], conf);
      if i >= |a| { assert b[i - |a|] == (a + b)[i]; }
    }
    if SomeRaises(a, conf) {
      var i :| 0 <= i < |a| && Raises(a[i], conf);
      assert (a + b)[i] == a[i];
    }
    if SomeRaises(b, conf) {
      var i :| 0 <= i < |b| && Raises(b[i], conf);
      assert (a + b)[|a| + i] == b[i];
    }
  }

  /** Detecting over two parts of the detector output is detecting over each
      part and concatenating the boxes. */
  lemma DetectAppend(a: seq<Detection>, b: seq<Detection>, conf: real)
    ensures Detect(a + b, conf).None? <==> Detect(a, conf).None? || Detect(b, conf).None?
    ensures Detect(a + b, conf).Some? ==> Detect(a + b, conf).value == Detect(a, conf).value + Detect(b, conf).value
  {
    KeptBoxesAppend(a, b, conf);
    RaisesAppend(a, b, conf);
  }

  // ---- the crossing rule ----

  function SumY(cs: seq<Centroid>): int {
    if cs == [] then 0 else SumY(cs[..|cs| - 1]) + cs[|cs| - 1].y
  }

  /** `np.mean([c[1] for c in to.centroids])` as a real number. The source
      computes it in float64; rounding cannot flip the sign of
      `y - mean` for integer pixel rows over any realistic track length,
      and the sign is all the crossing rule uses. */
  function MeanY(cs: seq<Centroid>): real
    requires cs != []
  {
    SumY(cs) as real / |cs| as real
  }

  /** `direction = centroid[1] - np.mean(y)`, in exact arithmetic. */
  function Direction(c: Centroid, history: seq<Centroid>): real
    requires history != []
  {
    c.y as real - MeanY(history)
  }

  /** The division-free direction: `cy * n - sum(ys)`, which has the sign of
      `Direction` (and is 0 for an empty history, where the mean is `nan`
      and both comparisons fail). */
  function Cross(c: Centroid, history: seq<Centroid>): int {
    c.y * |history| - SumY(history)
  }

  lemma CrossHasDirectionSign(c: Centroid, history: seq<Centroid>)
    ensures history != [] ==> (Cross(c, history) < 0 <==> Direction(c, history) < 0.0)
    ensures history != [] ==> (Cross(c, history) > 0 <==> Direction(c, history) > 0.0)
    ensures history == [] ==> Cross(c, history) == 0
  {
    if history == [] {
      return;
    }
    var n := |history| as real;
    var d := Direction(c, history);
    assert d * n == Cross(c, history) as real;
    if d < 0.0 {
      assert d * n < 0.0;
    } else if d > 0.0 {
      assert d * n > 0.0;
    } else {
      assert d * n == 0.0;
    }
  }

  /** What the crossing loop accumulates over one frame. */
  datatype Tally = Tally(
    objects: map<int, Trackable>,
    up: nat,
    down: nat,
    moveIn: seq<string>,
    moveOut: seq<string>,
    alerts: seq<int>)

  /** An exit ("Salida", `totalUp`) is counted for `id` at centroid `c`:
      known and not yet counted, moving up against the mean of its history,
      and above the midline. */
  predicate IsExit(objects: map<int, Trackable>, id: int, c: Centroid, mid: int) {
    id in objects && !objects[id].counted && objects[id].centroids != [] &&
    Direction(c, objects[id].centroids) < 0.0 && c.y < mid
  }

  /** An entry ("Entrada", `totalDown`): moving down and below the midline. */
  predicate IsEntry(objects: map<int, Trackable>, id: int, c: Centroid, mid: int) {
    id in objects && !objects[id].counted && objects[id].centroids != [] &&
    Direction(c, objects[id].centroids) > 0.0 && c.y > mid
  }

  /** The alert rule's parameters: `Threshold` and `ALERT` with defaults. */
  datatype AlertRule = AlertRule(threshold: int, enabled: bool)

  /** One iteration of `for (objectID, centroid) in objects.items()`. */
  function UpdateOne(t: Tally, id: int, c: Centroid, mid: int, rule: AlertRule, stamp: string): (r: Tally)
    ensures r.objects.Keys == t.objects.Keys + {id}
    ensures forall k :: k in t.objects && k != id ==> r.objects[k] == t.objects[k]
    ensures id !in t.objects ==> r.objects[id] == Trackable([c], false)
    ensures id in t.objects ==> r.objects[id].centroids == t.objects[id].centroids + [c]
    ensures r.objects[id].counted <==>
      (id in t.objects && t.objects[id].counted) || IsExit(t.objects, id, c, mid) || IsEntry(t.objects, id, c, mid)
    ensures r.up == t.up + (if IsExit(t.objects, id, c, mid) then 1 else 0)
    ensures r.down == t.down + (if IsEntry(t.objects, id, c, mid) then 1 else 0)
    ensures r.moveOut == t.moveOut + (if IsExit(t.objects, id, c, mid) then [stamp] else [])
    ensures r.moveIn == t.moveIn + (if IsEntry(t.objects, id, c, mid) then [stamp] else [])
    ensures r.alerts == t.alerts +
      (if IsEntry(t.objects, id, c, mid) && rule.enabled && t.down + 1 - t.up >= rule.threshold
       then [t.down + 1 - t.up] else [])
  {
    if id !in t.objects then
      t.(objects := t.objects[id := Trackable([c], false)])
    else
      var to := t.objects[id];
      var cross := Cross(c, to.centroids);
      CrossHasDirectionSign(c, to.centroids);
      var moved := to.(centroids := to.centroids + [c]);
      if to.counted then
        t.(objects := t.objects[id := moved])
      else if cross < 0 && c.y < mid then
        t.(objects := t.objects[id := moved.(counted := true)], up := t.up + 1, moveOut := t.moveOut + [stamp])
      else if cross > 0 && c.y > mid then
        var down := t.down + 1;
        var inside := down - t.up;
        t.(objects := t.objects[id := moved.(counted := true)], down := down, moveIn := t.moveIn + [stamp],
           alerts := t.alerts + (if inside >= rule.threshold && rule.enabled then [inside] else []))
      else
        t.(objects := t.objects[id := moved])
  }

  /** The ids whose `counted` flag is set. */
  function CountedIds(objects: map<int, Trackable>): set<int> {
    set k | k in objects && objects[k].counted
  }

  /** The ids of a frame's object map. */
  function IdsOf(items: seq<(int, Centroid)>): set<int> {
    set i | 0 <= i < |items| :: items[i].0
  }

  /** One iteration sets the flag of `id` exactly when it counts a crossing;
      no other flag changes. */
  lemma UpdateOneCounted(t: Tally, id: int, c: Centroid, mid: int, rule: AlertRule, stamp: string)
    ensures var r := UpdateOne(t, id, c, mid, rule, stamp);
      var crossed := IsExit(t.objects, id, c, mid) || IsEntry(t.objects, id, c, mid);
      CountedIds(r.objects) == CountedIds(t.objects) + (if crossed then {id} else {}) &&
      (crossed ==> id !in CountedIds(t.objects)) &&
      (r.up - t.up) + (r.down - t.down) == (if crossed then 1 else 0)
  {
  }

  /** One iteration adds at most one alert, only with an entry, at or over
      the threshold, and only when alerting is enabled. */
  lemma UpdateOneAlerts(t: Tally, id: int, c: Centroid, mid: int, rule: AlertRule, stamp: string)
    ensures var r := UpdateOne(t, id, c, mid, rule, stamp);
      |t.alerts| <= |r.alerts| <= |t.alerts| + (r.down - t.down) &&
      r.alerts[..|t.alerts|] == t.alerts &&
      (forall i :: |t.alerts| <= i < |r.alerts| ==> r.alerts[i] >= rule.threshold) &&
      (!rule.enabled ==> r.alerts == t.alerts)
  {
  }

  lemma SetDifferenceChain(a: set<int>, b: set<int>, c: set<int>)
    requires a <= b <= c
    ensures |c - a| == |c - b| + |b - a|
  {
    assert c - a == (c - b) + (b - a);
    assert (c - b) * (b - a) == {};
  }

  lemma IdsOfCons(items: seq<(int, Centroid)>)
    requires items != []
    ensures IdsOf(items) == {items[0].0} + IdsOf(items[1..])
  {
    assert forall i :: 1 <= i < |items| ==> items[i] == items[1..][i - 1];
    assert forall j :: 0 <= j < |items[1..]| ==> items[1..][j] == items[j + 1];
  }

  /** The whole crossing loop over one frame's object map, in dict order. */
  function CountFrame(t: Tally, items: seq<(int, Centroid)>, mid: int, rule: AlertRule, stamp: string): (r: Tally)
    ensures r.up >= t.up && r.down >= t.down
    ensures r.objects.Keys == t.objects.Keys + IdsOf(items)
    ensures forall k :: k in t.objects && k !in IdsOf(items) ==> r.objects[k] == t.objects[k]
    decreases |items|
  {
    if items == [] then t
    else
      var t1 := UpdateOne(t, items[0].0, items[0].1, mid, rule, stamp);
      IdsOfCons(items);
      CountFrame(t1, items[1..], mid, rule, stamp)
  }

  /** The counted flag never reverts; the ids newly counted in a frame are
      ids of that frame; and the two counters rise by exactly the number of
      newly counted ids. */
  lemma {:induction false} CountFrameCounts(t: Tally, items: seq<(int, Centroid)>, mid: int, rule: AlertRule, stamp: string)
    ensures var r := CountFrame(t, items, mid, rule, stamp);
      CountedIds(t.objects) <= CountedIds(r.objects) &&
      CountedIds(r.objects) - CountedIds(t.objects) <= IdsOf(items) &&
      (r.up - t.up) + (r.down - t.down) == |CountedIds(r.objects) - CountedIds(t.objects)|
    decreases |items|
  {
    if items != [] {
      var (id, c) := items[0];
      var t1 := UpdateOne(t, id, c, mid, rule, stamp);
      UpdateOneCounted(t, id, c, mid, rule, stamp);
      CountFrameCounts(t1, items[1..], mid, rule, stamp);
      var r := CountFrame(t1, items[1..], mid, rule, stamp);
      IdsOfCons(items);
      SetDifferenceChain(CountedIds(t.objects), CountedIds(t1.objects), CountedIds(r.objects));
    }
  }

  /** Each counted exit or entry appends exactly one timestamp to its list,
      and earlier timestamps stay. */
  lemma {:induction false} CountFrameStamps(t: Tally, items: seq<(int, Centroid)>, mid: int, rule: AlertRule, stamp: string)
    ensures var r := CountFrame(t, items, mid, rule, stamp);
      |r.moveIn| == |t.moveIn| + (r.down - t.down) &&
      |r.moveOut| == |t.moveOut| + (r.up - t.up) &&
      r.moveIn[..|t.moveIn|] == t.moveIn && r.moveOut[..|t.moveOut|] == t.moveOut
    decreases |items|
  {
    if items != [] {
      var t1 := UpdateOne(t, items[0].0, items[0].1, mid, rule, stamp);
      CountFrameStamps(t1, items[1..], mid, rule, stamp);
      var r := CountFrame(t1, items[1..], mid, rule, stamp);
      assert r.moveIn[..|t.moveIn|] == r.moveIn[..|t1.moveIn|][..|t.moveIn|];
      assert r.moveOut[..|t.moveOut|] == r.moveOut[..|t1.moveOut|][..|t.moveOut|];
    }
  }

  /** Alerts: at most one per counted entry, each with an occupancy at or over
      the threshold, none when alerting is disabled. */
  lemma {:induction false} CountFrameAlerts(t: Tally, items: seq<(int, Centroid)>, mid: int, rule: AlertRule, stamp: string)
    ensures var r := CountFrame(t, items, mid, rule, stamp);
      |t.alerts| <= |r.alerts| <= |t.alerts| + (r.down - t.down) &&
      r.alerts[..|t.alerts|] == t.alerts &&
      (forall i :: |t.alerts| <= i < |r.alerts| ==> r.alerts[i] >= rule.threshold) &&
      (!rule.enabled ==> r.alerts == t.alerts)
    decreases |items|
  {
    if items != [] {
      var t1 := UpdateOne(t, items[0].0, items[0].1, mid, rule, stamp);
      UpdateOneAlerts(t, items[0].0, items[0].1, mid, rule, stamp);
      CountFrameAlerts(t1, items[1..], mid, rule, stamp);
      var r := CountFrame(t1, items[1..], mid, rule, stamp);
      assert r.alerts[..|t.alerts|] == r.alerts[..|t1.alerts|][..|t.alerts|];
      forall i | |t.alerts| <= i < |r.alerts|
        ensures r.alerts[i] >= rule.threshold
      {
        if i < |t1.alerts| {
          assert r.alerts[i] == r.alerts[..|t1.alerts|][i] == t1.alerts[i];
        }
      }
    }
  }

  /** A frame in which every id is already counted changes neither counter. */
  lemma CountedIdsNeverCountAgain(t: Tally, items: seq<(int, Centroid)>, mid: int, rule: AlertRule, stamp: string)
    requires forall i :: 0 <= i < |items| ==> items[i].0 in CountedIds(t.objects)
    ensures CountFrame(t, items, mid, rule, stamp).up == t.up
    ensures CountFrame(t, items, mid, rule, stamp).down == t.down
  {
    var r := CountFrame(t, items, mid, rule, stamp);
    CountFrameCounts(t, items, mid, rule, stamp);
    assert CountedIds(r.objects) - CountedIds(t.objects) == {};
  }

  lemma {:induction false} IdsOfBound(items: seq<(int, Centroid)>)
    ensures |IdsOf(items)| <= |items|
  {
    if items != [] {
      IdsOfBound(items[1..]);
      IdsOfCons(items);
    }
  }

  /** One frame raises `totalUp + totalDown` by at most the number of ids in
      the frame's object map. */
  lemma FrameRaisesAtMostIds(t: Tally, items: seq<(int, Centroid)>, mid: int, rule: AlertRule, stamp: string)
    ensures var r := CountFrame(t, items, mid, rule, stamp);
      (r.up + r.down) - (t.up + t.down) <= |IdsOf(items)| <= |items|
  {
    var r := CountFrame(t, items, mid, rule, stamp);
    IdsOfBound(items);
    CountFrameCounts(t, items, mid, rule, stamp);
    SetDifferenceSize(CountedIds(r.objects) - CountedIds(t.objects), IdsOf(items));
  }

  // ---- the frame step ----

  /** The service state carried from frame to frame. `height` is `self.H`,
      fixed by the first frame read. */
  datatype CounterState = CounterState(
    totalFrames: nat,
    trackers: seq<Box>,
    objects: map<int, Trackable>,
    totalUp: nat,
    totalDown: nat,
    moveIn: seq<string>,
    moveOut: seq<string>,
    height: Option<nat>)

  /** The state `__init__` leaves. */
  function Initial(): CounterState {
    CounterState(0, [], map[], 0, 0, [], [], None)
  }

  /** A frame read: failed, or read with its (resized) height and what the
      detector would return for it. */
  datatype FrameRead = Failed | Read(height: nat, detections: seq<Detection>)

  /** Everything one loop iteration observes from outside: the read, the
      position each existing tracker reports (tracker `i` reports
      `reported(i)`), the id-to-centroid map `ct.update` returns (in dict
      order) and the wall-clock stamp for events. */
  datatype FrameInput = FrameInput(
    read: FrameRead,
    reported: nat -> Box,
    objects: seq<(int, Centroid)>,
    stamp: string)

  /** The tuple handed to `update_callback`. */
  datatype Snapshot = Snapshot(totalUp: int, totalDown: int, totalInside: int, status: string)

  const Detecting: string := "Detectando"
  const Tracking: string := "Rastreando"

  datatype FrameOutcome =
    | Retried
    | Crashed
    | Processed(
        next: CounterState,
        rects: seq<Box>,
        status: string,
        snapshot: Snapshot,
        alerts: seq<int>,
        log: Option<seq<seq<LogCell>>>)

  function SkipFrames(cfg: ServiceConfig): int { cfg.skipFrames.GetOr(DefaultSkipFrames) }

  /** Python's `totalFrames % skip == 0`. Only the test for zero matters, and
      it means "`skip` divides `totalFrames`" under both Python's and Dafny's
      remainder conventions. */
  predicate IsDetectionFrame(totalFrames: nat, skip: int)
    requires skip != 0
  {
    totalFrames % skip == 0
  }

  function Rule(cfg: ServiceConfig): AlertRule {
    AlertRule(cfg.threshold.GetOr(DefaultThreshold), cfg.alert.GetOr(false))
  }

  /** The tally the crossing loop starts a frame from. */
  function StartTally(s: CounterState): Tally {
    Tally(s.objects, s.totalUp, s.totalDown, s.moveIn, s.moveOut, [])
  }

  /** The part of an iteration after the boxes are known: counting against
      the midline `H // 2`, the snapshot, alerts and the log. */
  function Finish(s: CounterState, h: nat, trackers: seq<Box>, rects: seq<Box>, status: string,
                  cfg: ServiceConfig, input: FrameInput, moduleLog: bool): (r: FrameOutcome)
    ensures r.Processed? && r.rects == rects && r.status == status && r.next.trackers == trackers
    ensures r.next.totalFrames == s.totalFrames + 1 && r.next.height == Some(h)
    ensures r.snapshot == Snapshot(r.next.totalUp, r.next.totalDown, r.next.totalDown - r.next.totalUp, status)
    ensures r.log.Some? <==> cfg.log.GetOr(false) && moduleLog
  {
    var t := CountFrame(StartTally(s), input.objects, h / 2, Rule(cfg), input.stamp);
    var next := CounterState(s.totalFrames + 1, trackers, t.objects, t.up, t.down, t.moveIn, t.moveOut, Some(h));
    var log := if cfg.log.GetOr(false) && moduleLog then Some(LogRows(t.down, t.moveIn, t.up, t.moveOut)) else None;
    Processed(next, rects, status, Snapshot(t.up, t.down, t.down - t.up, status), t.alerts, log)
  }

  /** The rect list of a tracking frame: one box per existing tracker, each
      where that tracker now reports. */
  function TrackerRects(trackers: seq<Box>, reported: nat -> Box): (r: seq<Box>)
    ensures |r| == |trackers|
    ensures forall i :: 0 <= i < |r| ==> r[i] == reported(i)
  {
    seq(|trackers|, i requires 0 <= i => reported(i))
  }

  /** One iteration of the `while not self.stop_event.is_set()` loop.
      `moduleLog` is the `Log` flag of the module-level config that
      `log_counting_data` consults. */
  function Step(s: CounterState, cfg: ServiceConfig, input: FrameInput, moduleLog: bool): (r: FrameOutcome)
    ensures input.read.Failed? ==> r == Retried
    ensures r.Crashed? <==> (input.read.Read? &&
      (SkipFrames(cfg) == 0 ||
       (IsDetectionFrame(s.totalFrames, SkipFrames(cfg)) &&
        Detect(input.read.detections, cfg.confidence.GetOr(DefaultConfidence)).None?)))
    ensures r.Processed? ==> input.read.Read? && SkipFrames(cfg) != 0
    ensures r.Processed? ==> r.next.totalFrames == s.totalFrames + 1
    ensures r.Processed? ==> r.next.height == Some(if s.height.Some? then s.height.value else input.read.height)
    ensures r.Processed? ==> (r.status == Detecting <==> IsDetectionFrame(s.totalFrames, SkipFrames(cfg)))
    ensures r.Processed? ==> (r.status == Tracking <==> !IsDetectionFrame(s.totalFrames, SkipFrames(cfg)))
    ensures r.Processed? && r.status == Detecting ==>
      r.rects == [] && r.next.trackers == KeptBoxes(input.read.detections, cfg.confidence.GetOr(DefaultConfidence))
    ensures r.Processed? && r.status == Tracking ==>
      |r.rects| == |s.trackers| && r.next.trackers == r.rects &&
      forall i :: 0 <= i < |r.rects| ==> r.rects[i] == input.reported(i)
    ensures r.Processed? ==>
      r.snapshot == Snapshot(r.next.totalUp, r.next.totalDown, r.next.totalDown - r.next.totalUp, r.status)
  {
    match input.read
    case Failed => Retried
    case Read(frameHeight, dets) =>
      var h := if s.height.Some? then s.height.value else frameHeight;
      var skip := SkipFrames(cfg);
      if skip == 0 then Crashed
      else if IsDetectionFrame(s.totalFrames, skip) then
        match Detect(dets, cfg.confidence.GetOr(DefaultConfidence))
        case None => Crashed
        case Some(boxes) => Finish(s, h, boxes, [], Detecting, cfg, input, moduleLog)
      else
        var rects := TrackerRects(s.trackers, input.reported);
        Finish(s, h, rects, rects, Tracking, cfg, input, moduleLog)
  }

  /** A processed frame's counting is the crossing loop over the frame's
      object map against the midline of the (first) frame height. */
  lemma StepIsCountFrame(s: CounterState, cfg: ServiceConfig, input: FrameInput, moduleLog: bool)
    ensures var r := Step(s, cfg, input, moduleLog);
      r.Processed? ==>
        var t := CountFrame(StartTally(s), input.objects, r.next.height.value / 2, Rule(cfg), input.stamp);
        r.next.objects == t.objects && r.next.totalUp == t.up && r.next.totalDown == t.down &&
        r.next.moveIn == t.moveIn && r.next.moveOut == t.moveOut && r.alerts == t.alerts &&
        (r.log.Some? ==> r.log.value == LogRows(t.down, t.moveIn, t.up, t.moveOut))
  {
  }

  /** Counting across a processed frame: the counters never decrease, a set
      flag stays set, only ids of this frame become counted, and the counters
      rise by exactly the number of ids newly counted. */
  lemma StepCounts(s: CounterState, cfg: ServiceConfig, input: FrameInput, moduleLog: bool)
    ensures Step(s, cfg, input, moduleLog).Processed? ==>
      var r := Step(s, cfg, input, moduleLog).next;
      s.totalUp <= r.totalUp && s.totalDown <= r.totalDown &&
      CountedIds(s.objects) <= CountedIds(r.objects) &&
      CountedIds(r.objects) - CountedIds(s.objects) <= IdsOf(input.objects) &&
      (r.totalUp - s.totalUp) + (r.totalDown - s.totalDown) == |CountedIds(r.objects) - CountedIds(s.objects)|
  {
    var r := Step(s, cfg, input, moduleLog);
    if r.Processed? {
      StepIsCountFrame(s, cfg, input, moduleLog);
      CountFrameCounts(StartTally(s), input.objects, r.next.height.value / 2, Rule(cfg), input.stamp);
    }
  }

  /** Alerts of a processed frame: at most one per entry counted in it, each
      at an occupancy (`totalDown - totalUp` right after that entry) at or
      over `Threshold`, and none unless `ALERT` is set. */
  lemma StepAlerts(s: CounterState, cfg: ServiceConfig, input: FrameInput, moduleLog: bool)
    ensures var r := Step(s, cfg, input, moduleLog);
      r.Processed? ==>
        |r.alerts| <= r.next.totalDown - s.totalDown &&
        (forall i :: 0 <= i < |r.alerts| ==> r.alerts[i] >= cfg.threshold.GetOr(DefaultThreshold)) &&
        (!cfg.alert.GetOr(false) ==> r.alerts == [])
  {
    var r := Step(s, cfg, input, moduleLog);
    if r.Processed? {
      StepIsCountFrame(s, cfg, input, moduleLog);
      CountFrameAlerts(StartTally(s), input.objects, r.next.height.value / 2, Rule(cfg), input.stamp);
    }
  }

  /** What the service keeps true between frames: every count corresponds to
      one counted id, and each counted crossing has its timestamp. */
  predicate Inv(s: CounterState) {
    s.totalUp + s.totalDown == |CountedIds(s.objects)| &&
    |s.moveIn| == s.totalDown && |s.moveOut| == s.totalUp
  }

  lemma InitialInv()
    ensures Inv(Initial())
  {
    assert CountedIds(Initial().objects) == {};
  }

  lemma StepKeepsInv(s: CounterState, cfg: ServiceConfig, input: FrameInput, moduleLog: bool)
    requires Inv(s)
    ensures Step(s, cfg, input, moduleLog).Processed? ==> Inv(Step(s, cfg, input, moduleLog).next)
  {
    var r := Step(s, cfg, input, moduleLog);
    if r.Processed? {
      StepIsCountFrame(s, cfg, input, moduleLog);
      StepCounts(s, cfg, input, moduleLog);
      CountFrameStamps(StartTally(s), input.objects, r.next.height.value / 2, Rule(cfg), input.stamp);
      SetDifferenceSize(CountedIds(s.objects), CountedIds(r.next.objects));
    }
  }

  lemma SetDifferenceSize(a: set<int>, b: set<int>)
    requires a <= b
    ensures |b| == |a| + |b - a|
  {
    assert b == a + (b - a);
    assert a * (b - a) == {};
  }

  /** The state after running the loop over `inputs`; a crash ends the run
      with the state it had. */
  function Run(s: CounterState, cfg: ServiceConfig, inputs: seq<FrameInput>, moduleLog: bool): CounterState
    decreases |inputs|
  {
    if inputs == [] then s
    else
      match Step(s, cfg, inputs[0], moduleLog)
      case Retried => Run(s, cfg, inputs[1..], moduleLog)
      case Crashed => s
      case Processed(next, _, _, _, _, _) => Run(next, cfg, inputs[1..], moduleLog)
  }

  /** Over any run: the counters never decrease, a counted id stays counted
      (so it can never be counted again), and the invariant holds. */
  lemma {:induction false} RunKeepsCounts(s: CounterState, cfg: ServiceConfig, inputs: seq<FrameInput>, moduleLog: bool)
    requires Inv(s)
    ensures var r := Run(s, cfg, inputs, moduleLog);
      s.totalUp <= r.totalUp && s.totalDown <= r.totalDown &&
      CountedIds(s.objects) <= CountedIds(r.objects) && Inv(r)
    decreases |inputs|
  {
    if inputs != [] {
      var o := Step(s, cfg, inputs[0], moduleLog);
      if o.Processed? {
        StepCounts(s, cfg, inputs[0], moduleLog);
        StepKeepsInv(s, cfg, inputs[0], moduleLog);
        RunKeepsCounts(o.next, cfg, inputs[1..], moduleLog);
      } else if o.Retried? {
        RunKeepsCounts(s, cfg, inputs[1..], moduleLog);
      }
    }
  }
}

=== FILE: json.dfy ===
/** JSON configuration values as the Python code sees them after `json.load`,
    with Python's truthiness rules (`if not value:`). */
module Json {

  datatype Value =
    | Null
    | Bool(b: bool)
    | Int(i: int)
    | Real(r: real)
    | Str(s: string)
    | List(items: seq<Value>)

  /** A JSON object after loading: a Python dict from keys to values. */
  type Object = map<string, Value>

  /** Python truthiness: `None`, `False`, `0`, `0.0`, `""` and `[]` are false. */
  predicate Truthy(v: Value) {
    match v
    case Null => false
    case Bool(b) => b
    case Int(i) => i != 0
    case Real(r) => r != 0.0
    case Str(s) => s != ""
    case List(xs) => xs != []
  }

  /** A JSON file as the code finds it on disk: absent, unparsable, or
      loaded into an object. */
  datatype ConfigFile = Missing | Malformed | Loaded(contents: Object)

  /** `if not d.get(key):` fails, i.e. the key is present and its value truthy. */
  predicate HasTruthy(d: Object, key: string) {
    key in d && Truthy(d[key])
  }
}

=== FILE: monitor.dfy ===
/** The launcher's `monitorear_estado`: an edge-triggered state machine that
    starts the scheduler when the schedule turns inside and kills it when it
    turns outside. Each evaluation of the window check is an input. */
module Monitor {

  datatype Action = Launch | Kill | Idle

  /** `dentro`: the last evaluation of the window check. */
  datatype MonitorState = MonitorState(inside: bool)

  /** Startup: evaluate once and launch the scheduler if inside. */
  function Boot(eval: bool): (r: (MonitorState, Action))
    ensures r.0.inside == eval
    ensures r.1 == Launch <==> eval
    ensures r.1 != Kill
  {
    (MonitorState(eval), if eval then Launch else Idle)
  }

  /** One pass of the `while True` body with the new evaluation `eval`. */
  function Step(s: MonitorState, eval: bool): (r: (MonitorState, Action))
    ensures r.0.inside == eval
    ensures r.1 == Launch <==> eval && !s.inside
    ensures r.1 == Kill <==> !eval && s.inside
  {
    if eval && !s.inside then (MonitorState(true), Launch)
    else if !eval && s.inside then (MonitorState(false), Kill)
    else (s, Idle)
  }

  function Count(a: Action): (int, int) {
    match a
    case Launch => (1, 0)
    case Kill => (0, 1)
    case Idle => (0, 0)
  }

  /** Runs the loop over `evals`: final state, launches and kills. */
  function Run(s: MonitorState, evals: seq<bool>): (MonitorState, nat, nat)
    decreases |evals|
  {
    if evals == [] then (s, 0, 0)
    else
      var (s1, a) := Step(s, evals[0]);
      var (s2, l, k) := Run(s1, evals[1..]);
      (s2, l + Count(a).0, k + Count(a).1)
  }

  /** Launches and kills alternate: after any run the number of launches minus
      kills is 1 exactly when the state says inside, and 0 otherwise. */
  lemma {:induction false} RunAlternates(s: MonitorState, evals: seq<bool>)
    ensures var (s2, l, k) := Run(s, evals);
      l - k == (if s2.inside then 1 else 0) - (if s.inside then 1 else 0)
    ensures evals != [] ==> Run(s, evals).0.inside == evals[|evals| - 1]
    decreases |evals|
  {
    if evals != [] {
      var (s1, a) := Step(s, evals[0]);
      RunAlternates(s1, evals[1..]);
      if |evals| > 1 {
        assert evals[1..][|evals[1..]| - 1] == evals[|evals| - 1];
      }
    }
  }

  /** From startup on, this loop has launched the scheduler once more than
      it has killed it exactly when its latest evaluation is inside, and as
      often as it has killed it otherwise. (The configuration window also
      launches and kills schedulers; those are outside this count.) */
  lemma {:induction false} AtMostOneScheduler(first: bool, evals: seq<bool>)
    ensures var (s0, a0) := Boot(first);
      var (s2, l, k) := Run(s0, evals);
      Count(a0).0 + l - k == (if s2.inside then 1 else 0)
  {
    var (s0, a0) := Boot(first);
    RunAlternates(s0, evals);
  }

  /** The launcher as written: `main.py` starts this loop in a daemon thread,
      then only spawns the window and returns, so the interpreter exits and
      the thread dies before any later pass of the loop. What survives is
      the boot evaluation (a pass made in the same instant would see the
      same schedule); the later evaluations `evals` are never acted on.
      Result: final state, launches and kills. */
  function RunAsWritten(first: bool, evals: seq<bool>): (r: (MonitorState, nat, nat))
    ensures r.0.inside == first
    ensures r.1 == (if first then 1 else 0) && r.2 == 0
  {
    var (s0, a0) := Boot(first);
    (s0, Count(a0).0, Count(a0).1)
  }

  /** Booting inside and then leaving the schedule: as written the scheduler
      launched at boot keeps running (one launch, no kill), while the loop
      running for the life of the window would have killed it. */
  lemma AsWrittenStrandsScheduler(evals: seq<bool>)
    requires evals != [] && !evals[|evals| - 1]
    ensures var (_, l, k) := RunAsWritten(true, evals); l - k == 1
    ensures var (s0, a0) := Boot(true);
      var (_, l, k) := Run(s0, evals);
      Count(a0).0 + l - k == 0
  {
  }
}

=== FILE: optional.dfy ===
/** The Option type shared by every module of the model: Python's `None`
    versus a present value. */
module Optional {

  datatype Option<+T> = None | Some(value: T) {

    /** The value, or `default` when absent (Python's `d.get(k, default)`). */
    function GetOr(default: T): T {
      match this
      case Some(v) => v
      case None => default
    }
  }
}

=== FILE: report.dfy ===
/** The daily report: the two summary folds over the counting CSV
    (`generar_resumen_html` in the backend and `generar_resumen` in the
    stand-alone generator) and the guards before each sends its mail. CSV
    parsing, HTML text, MIME and SMTP are left out: rows arrive already split
    into cells, and whether the SMTP exchange succeeds is an input. */
module Report {
  import opened Optional
  import opened Json
  import CountLog

  /** A cell of the "Entradas" or "Salidas" column as `csv.DictReader` hands
      it over: the column is absent, the text is empty, whitespace only, text
      `int()` accepts, or text it rejects. */
  datatype Cell = Absent | Empty | Blank | Num(n: int) | Garbage

  datatype Row = Row(entradas: Cell, salidas: Cell)

  /** What a summary says: no CSV, the read failed and the error text is
      returned, the stand-alone fold raised, or the three figures. */
  datatype Summary = NoData | ReadError | Crash | Totals(entradas: int, salidas: int, total: int)

  /** What one cell adds to a sum; `None` when the fold raises on it. */
  type CellValue = Cell -> Option<int>

  /** The backend skips absent, empty and whitespace-only cells. */
  function ServiceValue(c: Cell): Option<int> {
    match c
    case Absent => Some(0)
    case Empty => Some(0)
    case Blank => Some(0)
    case Num(n) => Some(n)
    case Garbage => None
  }

  /** The generator skips only absent and empty cells; `int()` raises on a
      whitespace-only one. */
  function GeneratorValue(c: Cell): Option<int> {
    match c
    case Absent => Some(0)
    case Empty => Some(0)
    case Blank => None
    case Num(n) => Some(n)
    case Garbage => None
  }

  predicate Fails(value: CellValue, row: Row) {
    value(row.entradas).None? || value(row.salidas).None?
  }

  /** The loop over the rows: the two running sums, or `None` as soon as a
      cell raises. */
  function Fold(rows: seq<Row>, value: CellValue): (r: Option<(int, int)>)
    ensures r.None? <==> exists i :: 0 <= i < |rows| && Fails(value, rows[i])
    decreases |rows|
  {
    if rows == [] then Some((0, 0))
    else
      var prefix := Fold(rows[..|rows| - 1], value);
      var last := rows[|rows| - 1];
      assert forall i :: 0 <= i < |rows| - 1 ==> rows[..|rows| - 1][i] == rows[i];
      if prefix.None? || Fails(value, last) then None
      else Some((prefix.value.0 + value(last.entradas).value, prefix.value.1 + value(last.salidas).value))
  }

  /** The fold over two consecutive parts of the file is the sum of the folds
      over each part. */
  lemma {:induction false} FoldAppend(a: seq<Row>, b: seq<Row>, value: CellValue)
    ensures Fold(a + b, value).Some? <==> Fold(a, value).Some? && Fold(b, value).Some?
    ensures Fold(a + b, value).Some? ==>
      Fold(a + b, value).value.0 == Fold(a, value).value.0 + Fold(b, value).value.0 &&
      Fold(a + b, value).value.1 == Fold(a, value).value.1 + Fold(b, value).value.1
    decreases |b|
  {
    if b == [] {
      assert a + b == a;
    } else {
      var b' := b[..|b| - 1];
      assert (a + b)[..|a + b| - 1] == a + b';
      assert (a + b)[|a + b| - 1] == b[|b| - 1];
      FoldAppend(a, b', value);
    }
  }

  /** A one-row file adds exactly that row's cells. */
  lemma FoldSingle(row: Row, value: CellValue)
    ensures Fold([row], value) ==
      if Fails(value, row) then None else Some((value(row.entradas).value, value(row.salidas).value))
  {
    assert [row][..0] == [];
  }

  /** The shared shape of both summaries: no file means no data, a raising
      cell means `failure`, and otherwise the two sums and their difference. */
  function Summarise(csv: Option<seq<Row>>, value: CellValue, failure: Summary): (r: Summary)
    requires failure == ReadError || failure == Crash
    ensures csv.None? <==> r == NoData
    ensures csv.Some? && Fold(csv.value, value).None? <==> r == failure
    ensures r.Totals? ==> r.total == r.entradas - r.salidas
    ensures r.Totals? ==> Fold(csv.value, value) == Some((r.entradas, r.salidas))
  {
    if csv.None? then NoData
    else
      var sums := Fold(csv.value, value);
      if sums.None? then failure
      else Totals(sums.value.0, sums.value.1, sums.value.0 - sums.value.1)
  }

  /** `generar_resumen_html`: an unreadable cell is caught and turns into the
      error text. */
  function ServiceSummary(csv: Option<seq<Row>>): (r: Summary)
    ensures csv.None? <==> r == NoData
    ensures r != Crash
    ensures r == ReadError <==> (csv.Some? &&
      exists i :: 0 <= i < |csv.value| && (csv.value[i].entradas == Garbage || csv.value[i].salidas == Garbage))
    ensures r.Totals? ==> r.total == r.entradas - r.salidas
    ensures r.Totals? ==> csv.Some? && Fold(csv.value, ServiceValue) == Some((r.entradas, r.salidas))
  {
    var r := Summarise(csv, ServiceValue, ReadError);
    assert csv.Some? ==> forall i :: 0 <= i < |csv.value| ==>
      (Fails(ServiceValue, csv.value[i]) <==> csv.value[i].entradas == Garbage || csv.value[i].salidas == Garbage);
    r
  }

  /** `generar_resumen`: nothing is caught, so a whitespace-only or
      unparsable cell ends the program. */
  function GeneratorSummary(csv: Option<seq<Row>>): (r: Summary)
    ensures csv.None? <==> r == NoData
    ensures r != ReadError
    ensures r == Crash <==> (csv.Some? &&
      exists i :: 0 <= i < |csv.value| &&
        (csv.value[i].entradas in {Blank, Garbage} || csv.value[i].salidas in {Blank, Garbage}))
    ensures r.Totals? ==> r.total == r.entradas - r.salidas
    ensures r.Totals? ==> csv.Some? && Fold(csv.value, GeneratorValue) == Some((r.entradas, r.salidas))
  {
    var r := Summarise(csv, GeneratorValue, Crash);
    assert csv.Some? ==> forall i :: 0 <= i < |csv.value| ==>
      (Fails(GeneratorValue, csv.value[i]) <==>
       csv.value[i].entradas in {Blank, Garbage} || csv.value[i].salidas in {Blank, Garbage});
    r
  }

  predicate Clean(c: Cell) {
    c.Absent? || c.Empty? || c.Num?
  }

  lemma {:induction false} FoldsAgreeOnClean(rows: seq<Row>)
    requires forall i :: 0 <= i < |rows| ==> Clean(rows[i].entradas) && Clean(rows[i].salidas)
    ensures Fold(rows, ServiceValue) == Fold(rows, GeneratorValue)
    decreases |rows|
  {
    if rows != [] {
      FoldsAgreeOnClean(rows[..|rows| - 1]);
    }
  }

  /** On a file with no whitespace-only or unparsable cell the two programs
      report the same figures. */
  lemma SummariesAgreeOnCleanFiles(csv: Option<seq<Row>>)
    requires csv.Some? ==> forall i :: 0 <= i < |csv.value| ==>
      Clean(csv.value[i].entradas) && Clean(csv.value[i].salidas)
    ensures ServiceSummary(csv) == GeneratorSummary(csv)
  {
    if csv.Some? {
      FoldsAgreeOnClean(csv.value);
    }
  }

  // ---- reading back the log the counting service writes ----

  /** A written cell as read back: numbers come back as numbers, the fill
      value as empty text, and a timestamp is not a number. */
  function FromLog(c: CountLog.LogCell): (r: Cell)
    ensures c.Num? <==> r.Num?
    ensures c.Num? ==> r.n == c.n
    ensures c.Fill? <==> r == Empty
    ensures c.Stamp? ==> r == Garbage
  {
    match c
    case Num(n) => Num(n)
    case Fill => Empty
    case Stamp(_) => Garbage
  }

  /** The data rows of the CSV as `DictReader` returns them: column 0 is
      "Entradas" and column 2 is "Salidas". */
  function ReadBack(log: seq<seq<CountLog.LogCell>>): (rows: seq<Row>)
    requires forall i :: 0 <= i < |log| ==> |log[i]| == 4
    ensures |rows| == |log|
    ensures forall i :: 0 <= i < |log| ==> rows[i] == Row(FromLog(log[i][0]), FromLog(log[i][2]))
  {
    seq(|log|, i requires 0 <= i < |log| => Row(FromLog(log[i][0]), FromLog(log[i][2])))
  }

  /** Folding the first `k` rows is folding the first `k - 1` and then row
      `k - 1`. */
  lemma FoldSnoc(rows: seq<Row>, k: nat, value: CellValue)
    requires 0 < k <= |rows|
    ensures var prev := Fold(rows[..k - 1], value);
      Fold(rows[..k], value) ==
        if prev.None? || Fails(value, rows[k - 1]) then None
        else Some((prev.value.0 + value(rows[k - 1].entradas).value, prev.value.1 + value(rows[k - 1].salidas).value))
  {
    assert rows[..k][..k - 1] == rows[..k - 1];
    assert rows[..k][k - 1] == rows[k - 1];
  }

  /** `1 + 2 + ... + n`. */
  function Tri(n: nat): nat {
    if n == 0 then 0 else Tri(n - 1) + n
  }

  /** The triangular number in closed form. */
  lemma {:induction false} TriClosedForm(n: nat)
    ensures 2 * Tri(n) == n * (n + 1)
  {
    if n > 0 {
      TriClosedForm(n - 1);
      assert n * (n + 1) == (n - 1) * n + 2 * n;
    }
  }

  function Min(a: nat, b: nat): nat {
    if a <= b then a else b
  }

  /** Row `k - 1` adds `k` to the sum while `k <= d`, and nothing after. */
  lemma TriStep(k: nat, d: nat)
    requires k > 0
    ensures Tri(Min(k, d)) == Tri(Min(k - 1, d)) + (if k - 1 < d then k else 0)
  {
  }

  /** The rows written for `d` entries and `u` exits: entry number `i + 1` in
      row `i` while `i < d`, exit number `i + 1` while `i < u`, empty below. */
  predicate Numbered(rows: seq<Row>, d: nat, u: nat) {
    forall i :: 0 <= i < |rows| ==>
      rows[i].entradas == (if i < d then Num(i + 1) else Empty) &&
      rows[i].salidas == (if i < u then Num(i + 1) else Empty)
  }

  /** The entries column of numbered rows sums to a triangular number. */
  lemma {:induction false} FoldNumberedEntries(rows: seq<Row>, d: nat, u: nat, k: nat)
    requires Numbered(rows, d, u) && k <= |rows|
    ensures Fold(rows[..k], ServiceValue).Some?
    ensures Fold(rows[..k], ServiceValue).value.0 == Tri(Min(k, d))
  {
    if k > 0 {
      FoldNumberedEntries(rows, d, u, k - 1);
      FoldSnoc(rows, k, ServiceValue);
      assert ServiceValue(rows[k - 1].entradas) == Some(if k - 1 < d then k else 0);
      assert ServiceValue(rows[k - 1].salidas).Some?;
      TriStep(k, d);
    }
  }

  /** The exits column likewise. */
  lemma {:induction false} FoldNumberedExits(rows: seq<Row>, d: nat, u: nat, k: nat)
    requires Numbered(rows, d, u) && k <= |rows|
    ensures Fold(rows[..k], ServiceValue).Some?
    ensures Fold(rows[..k], ServiceValue).value.1 == Tri(Min(k, u))
  {
    if k > 0 {
      FoldNumberedExits(rows, d, u, k - 1);
      FoldSnoc(rows, k, ServiceValue);
      assert ServiceValue(rows[k - 1].entradas).Some?;
      assert ServiceValue(rows[k - 1].salidas) == Some(if k - 1 < u then k else 0);
      TriStep(k, u);
    }
  }

  lemma FoldNumbered(rows: seq<Row>, d: nat, u: nat, k: nat)
    requires Numbered(rows, d, u) && k <= |rows|
    ensures Fold(rows[..k], ServiceValue) == Some((Tri(Min(k, d)), Tri(Min(k, u))))
  {
    FoldNumberedEntries(rows, d, u, k);
    FoldNumberedExits(rows, d, u, k);
  }

  lemma LogIsNumbered(d: nat, moveIn: seq<string>, u: nat, moveOut: seq<string>)
    ensures var log := CountLog.LogRows(d, moveIn, u, moveOut);
      (forall i :: 0 <= i < |log| ==> |log[i]| == 4) &&
      Numbered(ReadBack(log), d, u) &&
      |log| == CountLog.Max4(d, |moveIn|, u, |moveOut|)
  {
    CountLog.LogRowsShape(d, moveIn, u, moveOut);
  }

  /** The backend summary of the log written after `d` entries and `u` exits
      reports `1 + ... + d` entries and `1 + ... + u` exits: it sums the entry
      numbers instead of counting them. */
  lemma LoggedSummaryIsTriangular(d: nat, moveIn: seq<string>, u: nat, moveOut: seq<string>)
    ensures var log := CountLog.LogRows(d, moveIn, u, moveOut);
      (forall i :: 0 <= i < |log| ==> |log[i]| == 4) &&
      ServiceSummary(Some(ReadBack(log))) == Totals(Tri(d), Tri(u), Tri(d) - Tri(u))
  {
    LogIsNumbered(d, moveIn, u, moveOut);
    var rows := ReadBack(CountLog.LogRows(d, moveIn, u, moveOut));
    FoldNumbered(rows, d, u, |rows|);
    assert rows[..|rows|] == rows;
  }

  /** Two entries and no exits are reported as three people in. */
  lemma TwoEntriesReportedAsThree()
    ensures var log := CountLog.LogRows(2, ["t1", "t2"], 0, []);
      (forall i :: 0 <= i < |log| ==> |log[i]| == 4) &&
      ServiceSummary(Some(ReadBack(log))).entradas == 3
  {
    LoggedSummaryIsTriangular(2, ["t1", "t2"], 0, []);
  }

  /** Counting the non-empty numbers instead of adding them. */
  function CountValue(c: Cell): Option<int> {
    match c
    case Absent => Some(0)
    case Empty => Some(0)
    case Blank => Some(0)
    case Num(_) => Some(1)
    case Garbage => None
  }

  /** The summary the log's layout calls for: each numbered row is one
      person. */
  function CountedSummary(csv: Option<seq<Row>>): (r: Summary)
    ensures csv.None? <==> r == NoData
    ensures r != Crash
    ensures r.Totals? ==> r.total == r.entradas - r.salidas
  {
    Summarise(csv, CountValue, ReadError)
  }

  lemma {:induction false} FoldCounted(rows: seq<Row>, d: nat, u: nat, k: nat)
    requires Numbered(rows, d, u) && k <= |rows|
    ensures Fold(rows[..k], CountValue) == Some((Min(k, d), Min(k, u)))
  {
    if k > 0 {
      FoldCounted(rows, d, u, k - 1);
      FoldSnoc(rows, k, CountValue);
    }
  }

  /** Counted this way, the summary of the log reports exactly the entries,
      the exits and the occupancy of the counter that wrote it. */
  lemma CountedSummaryMatchesCounter(d: nat, moveIn: seq<string>, u: nat, moveOut: seq<string>)
    ensures var log := CountLog.LogRows(d, moveIn, u, moveOut);
      (forall i :: 0 <= i < |log| ==> |log[i]| == 4) &&
      CountedSummary(Some(ReadBack(log))) == Totals(d, u, d - u)
  {
    LogIsNumbered(d, moveIn, u, moveOut);
    var rows := ReadBack(CountLog.LogRows(d, moveIn, u, moveOut));
    FoldCounted(rows, d, u, |rows|);
    assert rows[..|rows|] == rows;
  }

  // ---- sending ----

  /** A mail as built: sender, receiver, the summary it carries and the CSV
      attached when the file exists. */
  datatype Message = Message(sender: Value, receiver: Value, body: Summary, attachment: Option<seq<Row>>)

  /** `send_daily_report_email`: what it returns, the mail delivered, and the
      CSV left on disk afterwards. */
  datatype SendOutcome = SendOutcome(returned: bool, delivered: Option<Message>, csvAfter: Option<seq<Row>>)

  /** A loaded JSON object that `if not config:` accepts. */
  predicate Usable(o: Option<Object>) {
    o.Some? && o.value != map[]
  }

  predicate Credentials(email: Option<Object>, schedule: Option<Object>) {
    Usable(email) && Usable(schedule) &&
    HasTruthy(email.value, "Email_Send") && HasTruthy(schedule.value, "email_report_receiver") &&
    HasTruthy(email.value, "Email_Password")
  }

  /** `send_daily_report_email`. `email` and `schedule` are what `_cargar_json`
      returns (`None` for a missing or unparsable file), `csv` the counting
      file if present, and `smtpOk` whether the SMTP exchange succeeded. */
  function SendDailyReport(email: Option<Object>, schedule: Option<Object>, csv: Option<seq<Row>>, smtpOk: bool): (r: SendOutcome)
    ensures r.returned <==> Credentials(email, schedule) && csv.Some? && smtpOk
    ensures r.delivered.Some? <==> r.returned
    ensures r.csvAfter == if r.returned then None else csv
    ensures r.returned ==> r.delivered == Some(Message(email.value["Email_Send"],
      schedule.value["email_report_receiver"], ServiceSummary(csv), csv))
  {
    var declined := SendOutcome(false, None, csv);
    if !Usable(email) || !Usable(schedule) then declined
    else if !HasTruthy(email.value, "Email_Send") || !HasTruthy(schedule.value, "email_report_receiver")
         || !HasTruthy(email.value, "Email_Password") then declined
    else
      var summary := ServiceSummary(csv);
      if summary == NoData then declined
      else
        var msg := Message(email.value["Email_Send"], schedule.value["email_report_receiver"], summary, csv);
        if smtpOk then SendOutcome(true, Some(msg), None)
        else declined
  }

  /** An unreadable cell does not stop the mail: the error text goes out as
      the report and the CSV is deleted. */
  lemma ErrorSummaryIsSent(email: Option<Object>, schedule: Option<Object>, rows: seq<Row>, i: nat)
    requires Credentials(email, schedule) && i < |rows| && rows[i].entradas == Garbage
    ensures SendDailyReport(email, schedule, Some(rows), true).delivered.value.body == ReadError
    ensures SendDailyReport(email, schedule, Some(rows), true).csvAfter == None
  {
  }

  /** `enviar_correo`: raising, returning early, or attempting delivery. */
  datatype MailOutcome = Raised | Skipped | Delivered(msg: Message) | Undelivered

  predicate KeysPresent(email: ConfigFile, general: ConfigFile) {
    email.Loaded? && general.Loaded? &&
    "Email_Send" in email.contents && "email_report_receiver" in general.contents &&
    "Email_Password" in email.contents
  }

  /** `enviar_correo`: both files are opened and indexed without a guard, so
      a missing file or key raises; an empty credential skips the mail; an
      SMTP failure is caught and printed. */
  function EnviarCorreo(email: ConfigFile, general: ConfigFile, report: Summary, csv: Option<seq<Row>>, smtpOk: bool): (r: MailOutcome)
    ensures r == Raised <==> !KeysPresent(email, general)
    ensures r == Skipped <==> (KeysPresent(email, general) &&
      !(Truthy(email.contents["Email_Send"]) && Truthy(general.contents["email_report_receiver"]) &&
        Truthy(email.contents["Email_Password"])))
    ensures r.Delivered? <==> (KeysPresent(email, general) && smtpOk &&
      HasTruthy(email.contents, "Email_Send") && HasTruthy(general.contents, "email_report_receiver") &&
      HasTruthy(email.contents, "Email_Password"))
    ensures r.Delivered? ==> r.msg == Message(email.contents["Email_Send"],
      general.contents["email_report_receiver"], report, csv)
  {
    if !KeysPresent(email, general) then Raised
    else
      var sender := email.contents["Email_Send"];
      var receiver := general.contents["email_report_receiver"];
      var password := email.contents["Email_Password"];
      if !Truthy(sender) || !Truthy(receiver) || !Truthy(password) then Skipped
      else if smtpOk then Delivered(Message(sender, receiver, report, csv))
      else Undelivered
  }

  /** The generator run as a script: summarise, then mail whatever came out. */
  function GeneratorMain(csv: Option<seq<Row>>, email: ConfigFile, general: ConfigFile, smtpOk: bool): (r: MailOutcome)
    ensures GeneratorSummary(csv) == Crash ==> r == Raised
    ensures GeneratorSummary(csv) != Crash ==> r == EnviarCorreo(email, general, GeneratorSummary(csv), csv, smtpOk)
  {
    var summary := GeneratorSummary(csv);
    if summary == Crash then Raised else EnviarCorreo(email, general, summary, csv, smtpOk)
  }

  /** Unlike the backend, the generator mails the "no data" report when there
      is no CSV. */
  lemma GeneratorMailsWithoutData(email: ConfigFile, general: ConfigFile)
    requires KeysPresent(email, general)
    requires HasTruthy(email.contents, "Email_Send") && HasTruthy(general.contents, "email_report_receiver")
    requires HasTruthy(email.contents, "Email_Password")
    ensures GeneratorMain(None, email, general, true) == Delivered(Message(email.contents["Email_Send"],
      general.contents["email_report_receiver"], NoData, None))
    ensures SendDailyReport(Some(email.contents), Some(general.contents), None, true) == SendOutcome(false, None, None)
  {
  }
}

=== FILE: schedule.dfy ===
/** The schedule file and the three "are we inside working hours?" checks
    that the scheduler, the launcher and the configuration window each
    implement, plus the scheduler's end-of-day test. */
module Schedule {
  import opened Optional
  import opened TimeText

  datatype TimeRange = TimeRange(start: string, end: string)

  /** The schedule file as the configuration window writes it: active day
      names (English, as `strftime("%A")` prints them), time ranges, and the
      receiver of the daily report. */
  datatype ScheduleConfig = ScheduleConfig(
    activeDays: seq<string>,
    timeRanges: seq<TimeRange>,
    receiver: string)

  /** Python's chained comparison `lo <= x <= hi` on strings. */
  predicate Within(lo: string, x: string, hi: string) {
    LessEq(lo, x) && LessEq(x, hi)
  }

  /** A range bound as one check compares it: raw, or normalised. */
  function Bound(s: string, normalise: bool): string {
    if normalise then Normalise(s) else s
  }

  /** The range holds `clock` (already prepared by the caller) with bounds
      prepared as `normalise` says. */
  predicate RangeHolds(r: TimeRange, clock: string, normalise: bool) {
    Within(Bound(r.start, normalise), clock, Bound(r.end, normalise))
  }

  /** The loop `for rango in ranges: if start <= hora <= end: return True`
      followed by `return False`. */
  function ScanRanges(ranges: seq<TimeRange>, clock: string, normalise: bool): (r: bool)
    ensures r <==> exists i :: 0 <= i < |ranges| && RangeHolds(ranges[i], clock, normalise)
  {
    if ranges == [] then false
    else if RangeHolds(ranges[0], clock, normalise) then true
    else
      var rest := ScanRanges(ranges[1..], clock, normalise);
      assert forall i :: 1 <= i < |ranges| ==> ranges[i] == ranges[1..][i - 1];
      rest
  }

  /** `esta_dentro_del_horario` of the scheduler: the current time is
      normalised, the range bounds are compared raw. */
  function SchedulerInside(cfg: ScheduleConfig, day: string, clock: string): (r: bool)
    ensures day !in cfg.activeDays ==> !r
    ensures r <==> (day in cfg.activeDays &&
      exists i :: 0 <= i < |cfg.timeRanges| &&
        LessEq(cfg.timeRanges[i].start, Normalise(clock)) &&
        LessEq(Normalise(clock), cfg.timeRanges[i].end))
  {
    day in cfg.activeDays && ScanRanges(cfg.timeRanges, Normalise(clock), false)
  }

  /** `esta_dentro_del_horario` of the launcher: a missing schedule file means
      outside; the current time and the bounds are compared raw. */
  function MonitorInside(file: Option<ScheduleConfig>, day: string, clock: string): (r: bool)
    ensures file.None? ==> !r
    ensures file.Some? && day !in file.value.activeDays ==> !r
    ensures r <==> (file.Some? && day in file.value.activeDays &&
      exists i :: 0 <= i < |file.value.timeRanges| &&
        LessEq(file.value.timeRanges[i].start, clock) &&
        LessEq(clock, file.value.timeRanges[i].end))
  {
    match file
    case None => false
    case Some(cfg) => day in cfg.activeDays && ScanRanges(cfg.timeRanges, clock, false)
  }

  /** `esta_dentro_de_horario` of the configuration window: a missing file
      means outside; the current time and both bounds are normalised. */
  function GuiInside(file: Option<ScheduleConfig>, day: string, clock: string): (r: bool)
    ensures file.None? ==> !r
    ensures file.Some? && day !in file.value.activeDays ==> !r
    ensures r <==> (file.Some? && day in file.value.activeDays &&
      exists i :: 0 <= i < |file.value.timeRanges| &&
        LessEq(Normalise(file.value.timeRanges[i].start), Normalise(clock)) &&
        LessEq(Normalise(clock), Normalise(file.value.timeRanges[i].end)))
  {
    match file
    case None => false
    case Some(cfg) => day in cfg.activeDays && ScanRanges(cfg.timeRanges, Normalise(clock), true)
  }

  /** On a real clock reading (five characters, as `strftime("%H:%M")` always
      prints) the scheduler and the launcher agree: the scheduler's
      normalisation of the current time changes nothing. */
  lemma SchedulerAgreesWithMonitor(cfg: ScheduleConfig, day: string, clock: string)
    requires |clock| == ClockWidth
    ensures SchedulerInside(cfg, day, clock) == MonitorInside(Some(cfg), day, clock)
  {
    NormaliseKeepsClockWidth(clock);
  }

  /** Every bound of the schedule is a five-character string. */
  predicate PaddedBounds(cfg: ScheduleConfig) {
    forall i :: 0 <= i < |cfg.timeRanges| ==>
      |cfg.timeRanges[i].start| == ClockWidth && |cfg.timeRanges[i].end| == ClockWidth
  }

  /** When every bound is zero-padded, all three checks agree. */
  lemma GuiAgreesOnPaddedBounds(cfg: ScheduleConfig, day: string, clock: string)
    requires |clock| == ClockWidth
    requires PaddedBounds(cfg)
    ensures GuiInside(Some(cfg), day, clock) == MonitorInside(Some(cfg), day, clock)
    ensures GuiInside(Some(cfg), day, clock) == SchedulerInside(cfg, day, clock)
  {
    NormaliseKeepsClockWidth(clock);
    forall i | 0 <= i < |cfg.timeRanges|
      ensures Normalise(cfg.timeRanges[i].start) == cfg.timeRanges[i].start
      ensures Normalise(cfg.timeRanges[i].end) == cfg.timeRanges[i].end
    {
      NormaliseKeepsClockWidth(cfg.timeRanges[i].start);
      NormaliseKeepsClockWidth(cfg.timeRanges[i].end);
    }
  }

  /** The schedule with every bound normalised, as `lstrip("0").rjust(5, "0")`
      would write it. */
  function NormaliseBounds(cfg: ScheduleConfig): (r: ScheduleConfig)
    ensures r.activeDays == cfg.activeDays
    ensures |r.timeRanges| == |cfg.timeRanges|
    ensures forall i :: 0 <= i < |r.timeRanges| ==>
      r.timeRanges[i] == TimeRange(Normalise(cfg.timeRanges[i].start), Normalise(cfg.timeRanges[i].end))
  {
    cfg.(timeRanges := seq(|cfg.timeRanges|, i requires 0 <= i < |cfg.timeRanges| =>
      TimeRange(Normalise(cfg.timeRanges[i].start), Normalise(cfg.timeRanges[i].end))))
  }

  /** The configuration window's check is the raw check applied to the
      zero-padded schedule: a bound written "9:00" means "09:00". */
  lemma GuiIsRawCheckOfPaddedSchedule(cfg: ScheduleConfig, day: string, clock: string)
    requires |clock| == ClockWidth
    ensures GuiInside(Some(cfg), day, clock) == MonitorInside(Some(NormaliseBounds(cfg)), day, clock)
    ensures GuiInside(Some(cfg), day, clock) == GuiInside(Some(NormaliseBounds(cfg)), day, clock)
  {
    NormaliseKeepsClockWidth(clock);
    var n := NormaliseBounds(cfg);
    forall i | 0 <= i < |n.timeRanges|
      ensures Normalise(n.timeRanges[i].start) == n.timeRanges[i].start
      ensures Normalise(n.timeRanges[i].end) == n.timeRanges[i].end
    {
      NormaliseIdempotent(cfg.timeRanges[i].start);
      NormaliseIdempotent(cfg.timeRanges[i].end);
    }
  }

  /** The schedule "Monday 9:00 to 17:00", with its start not zero-padded. */
  function UnpaddedMonday(): ScheduleConfig {
    ScheduleConfig(["Monday"], [TimeRange("9:00", "17:00")], "")
  }

  lemma RawChecksRejectUnpaddedStart()
    ensures !SchedulerInside(UnpaddedMonday(), "Monday", "09:30")
    ensures !MonitorInside(Some(UnpaddedMonday()), "Monday", "09:30")
  {
    UnpaddedStartAfterClock();
    NormaliseKeepsClockWidth("09:30");
  }

  /** Compared raw, "9:00" sorts after "09:30". */
  lemma UnpaddedStartAfterClock()
    ensures !LessEq("9:00", "09:30")
  {
    assert "9:00"[0] == '9' && "09:30"[0] == '0';
  }

  lemma GuiAcceptsUnpaddedStart()
    ensures GuiInside(Some(UnpaddedMonday()), "Monday", "09:30")
  {
    NormaliseKeepsClockWidth("09:30");
    NormaliseKeepsClockWidth("17:00");
    PaddedStartNormalises();
    PaddedRangeHoldsClock();
  }

  /** The window reads "9:00" as "09:00". */
  lemma PaddedStartNormalises()
    ensures Normalise("9:00") == "09:00"
  {
    NormaliseShort("9:00");
    assert Zeros(1) == "0";
  }

  lemma PaddedRangeHoldsClock()
    ensures Within("09:00", "09:30", "17:00")
  {
    assert "09:00"[..3] == "09:30"[..3] && "09:00"[3] < "09:30"[3];
    assert Less("09:00"[3..], "09:30"[3..]);
    assert "09:30"[0] < "17:00"[0];
  }

  /** Checked on Monday at 09:30, the unpadded schedule is outside for the
      scheduler and the launcher but inside for the configuration window. */
  lemma UnpaddedStartDisagreement()
    ensures !SchedulerInside(UnpaddedMonday(), "Monday", "09:30")
    ensures !MonitorInside(Some(UnpaddedMonday()), "Monday", "09:30")
    ensures GuiInside(Some(UnpaddedMonday()), "Monday", "09:30")
  {
    RawChecksRejectUnpaddedStart();
    GuiAcceptsUnpaddedStart();
  }

  /** The largest `end` of a non-empty list of ranges, as Python's `max`
      finds it. */
  function MaxEnd(ranges: seq<TimeRange>): (m: string)
    requires ranges != []
    ensures exists i :: 0 <= i < |ranges| && ranges[i].end == m
    ensures forall i :: 0 <= i < |ranges| ==> LessEq(ranges[i].end, m)
  {
    if |ranges| == 1 then ranges[0].end
    else
      var rest := MaxEnd(ranges[1..]);
      assert forall i :: 1 <= i < |ranges| ==> ranges[i] == ranges[1..][i - 1];
      if Less(rest, ranges[0].end) then
        forall i | 1 <= i < |ranges| ensures LessEq(ranges[i].end, ranges[0].end) {
          if Less(ranges[i].end, rest) {
            LessTransitive(ranges[i].end, rest, ranges[0].end);
          }
        }
        ranges[0].end
      else
        LessTotal(rest, ranges[0].end);
        rest
  }

  /** `jornada_finalizada`: the (raw) current time is later than the largest
      end. With no ranges, `max` raises and the result is `None`. */
  function DayFinished(cfg: ScheduleConfig, clock: string): (r: Option<bool>)
    ensures r.None? <==> cfg.timeRanges == []
    ensures r == Some(true) <==>
      cfg.timeRanges != [] && forall i :: 0 <= i < |cfg.timeRanges| ==> Less(cfg.timeRanges[i].end, clock)
  {
    if cfg.timeRanges == [] then None
    else
      var m := MaxEnd(cfg.timeRanges);
      if Less(m, clock) then
        forall i | 0 <= i < |cfg.timeRanges| ensures Less(cfg.timeRanges[i].end, clock) {
          if cfg.timeRanges[i].end != m {
            LessTransitive(cfg.timeRanges[i].end, m, clock);
          }
        }
        Some(true)
      else
        Some(false)
  }
}

=== FILE: scheduler_loop.dfy ===
/** One iteration of the scheduler's `main_loop`: launch the counter when
    inside working hours, then send the daily report at the exact end of a
    range, at most once per day. Clock readings and dates are parameters. */
module SchedulerLoop {
  import opened Optional
  import opened TimeText
  import opened Schedule

  /** `reporte_enviado` and `fecha_actual`. A date is any comparable day
      number. */
  datatype LoopState = LoopState(reportSent: bool, date: int)

  /** What one iteration observes: the loaded schedule (`None` for a missing
      file), the day name, the clock read by the window check, the clock read
      after the sleep, and the date read after the sleep. */
  datatype Tick = Tick(
    config: Option<ScheduleConfig>,
    day: string,
    windowClock: string,
    reportClock: string,
    newDate: int)

  datatype Iteration = Iteration(next: LoopState, counterLaunched: bool, reportLaunched: bool)

  /** The state before the first iteration. */
  function Initial(today: int): LoopState {
    LoopState(false, today)
  }

  /** The ends of the ranges, normalised. */
  function Ends(ranges: seq<TimeRange>): (e: seq<string>)
    ensures |e| == |ranges|
    ensures forall i :: 0 <= i < |ranges| ==> e[i] == Normalise(ranges[i].end)
  {
    if ranges == [] then [] else [Normalise(ranges[0].end)] + Ends(ranges[1..])
  }

  /** Some range ends exactly at `clock` once both are normalised. */
  predicate EndsAt(ranges: seq<TimeRange>, clock: string) {
    Normalise(clock) in Ends(ranges)
  }

  /** The report loop over the ranges: each range whose normalised end equals
      the normalised clock runs the report unless the flag is already set, and
      then sets it. Returns the flag afterwards and the number of runs. */
  function ScanReport(ranges: seq<TimeRange>, clock: string, sent: bool): (r: (bool, nat))
    ensures r.1 == if !sent && EndsAt(ranges, clock) then 1 else 0
    ensures r.0 <==> sent || EndsAt(ranges, clock)
  {
    if ranges == [] then (sent, 0)
    else
      var hit := Normalise(ranges[0].end) == Normalise(clock) && !sent;
      var rest := ScanReport(ranges[1..], clock, sent || hit);
      (rest.0, rest.1 + (if hit then 1 else 0))
  }

  /** One pass of the `while True` body. */
  function Step(s: LoopState, t: Tick): (r: Iteration)
    ensures r.counterLaunched <==> t.config.Some? && SchedulerInside(t.config.value, t.day, t.windowClock)
    ensures r.reportLaunched <==> t.config.Some? && !s.reportSent && EndsAt(t.config.value.timeRanges, t.reportClock)
    ensures r.next.date == t.newDate
    ensures t.newDate != s.date ==> !r.next.reportSent
    ensures t.newDate == s.date ==> (r.next.reportSent <==> s.reportSent || r.reportLaunched)
  {
    var launched := t.config.Some? && SchedulerInside(t.config.value, t.day, t.windowClock);
    var scan := if t.config.Some? then ScanReport(t.config.value.timeRanges, t.reportClock, s.reportSent)
                else (s.reportSent, 0);
    var next := if t.newDate != s.date then LoopState(false, t.newDate) else LoopState(scan.0, s.date);
    Iteration(next, launched, scan.1 == 1)
  }

  /** The flag goes from set to clear only when the date changes. */
  lemma FlagClearsOnlyOnNewDate(s: LoopState, t: Tick)
    requires s.reportSent && !Step(s, t).next.reportSent
    ensures t.newDate != s.date
  {
  }

  /** Runs `ticks` from `s`: the final state and the number of report runs. */
  function Run(s: LoopState, ticks: seq<Tick>): (LoopState, nat)
    decreases |ticks|
  {
    if ticks == [] then (s, 0)
    else
      var it := Step(s, ticks[0]);
      var rest := Run(it.next, ticks[1..]);
      (rest.0, rest.1 + (if it.reportLaunched then 1 else 0))
  }

  /** While the date stays the same, the report runs at most once, and not at
      all once it has been sent. */
  lemma {:induction false} AtMostOneReportPerDay(s: LoopState, ticks: seq<Tick>)
    requires forall k :: 0 <= k < |ticks| ==> ticks[k].newDate == s.date
    ensures Run(s, ticks).1 <= if s.reportSent then 0 else 1
    ensures s.reportSent ==> Run(s, ticks).0.reportSent
    decreases |ticks|
  {
    if ticks != [] {
      var it := Step(s, ticks[0]);
      assert it.next.date == s.date;
      assert forall k :: 0 <= k < |ticks[1..]| ==> ticks[1..][k].newDate == it.next.date;
      AtMostOneReportPerDay(it.next, ticks[1..]);
    }
  }
}

=== FILE: seqs.dfy ===
/** Order-preserving filtering of sequences (Python's
    `[x for x in xs if keep(x)]`) and the subsequence relation it respects. */
module Seqs {

  /** `a` is `b` with some elements deleted, the rest kept in order. */
  predicate IsSubseq<T(==)>(a: seq<T>, b: seq<T>)
    decreases |b|
  {
    if a == [] then true
    else if b == [] then false
    else if a[0] == b[0] then IsSubseq(a[1..], b[1..])
    else IsSubseq(a, b[1..])
  }

  function Filter<T(==)>(xs: seq<T>, keep: T -> bool): (r: seq<T>)
    ensures |r| <= |xs|
    ensures forall i :: 0 <= i < |r| ==> r[i] in xs && keep(r[i])
    ensures forall i :: 0 <= i < |xs| && keep(xs[i]) ==> xs[i] in r
    ensures IsSubseq(r, xs)
  {
    if xs == [] then []
    else
      var rest := Filter(xs[1..], keep);
      assert forall i :: 1 <= i < |xs| ==> xs[i] == xs[1..][i - 1];
      if keep(xs[0]) then
        assert ([xs[0]] + rest)[1..] == rest;
        [xs[0]] + rest
      else rest
  }

  /** Filtering distributes over concatenation. */
  lemma {:induction false} FilterAppend<T>(a: seq<T>, b: seq<T>, keep: T -> bool)
    ensures Filter(a + b, keep) == Filter(a, keep) + Filter(b, keep)
  {
    if a != [] {
      assert (a + b)[1..] == a[1..] + b;
      FilterAppend(a[1..], b, keep);
    } else {
      assert a + b == b;
    }
  }

  /** Filtering keeps every kept element as often as it occurs, and drops
      every other element entirely. */
  lemma {:induction false} FilterMultiplicity<T>(xs: seq<T>, keep: T -> bool, x: T)
    ensures multiset(Filter(xs, keep))[x] == if keep(x) then multiset(xs)[x] else 0
  {
    if xs != [] {
      FilterMultiplicity(xs[1..], keep, x);
      assert xs == [xs[0]] + xs[1..];
      var rest := Filter(xs[1..], keep);
      if keep(xs[0]) {
        assert Filter(xs, keep) == [xs[0]] + rest;
      }
    }
  }

  /** Filtering twice with the same test changes nothing further. */
  lemma {:induction false} FilterIdempotent<T>(xs: seq<T>, keep: T -> bool)
    ensures Filter(Filter(xs, keep), keep) == Filter(xs, keep)
  {
    if xs != [] {
      FilterIdempotent(xs[1..], keep);
      var rest := Filter(xs[1..], keep);
      if keep(xs[0]) {
        assert ([xs[0]] + rest)[1..] == rest;
      }
    }
  }
}

=== FILE: timetext.dfy ===
/** Text operations on "HH:MM" clock strings: Python's `lstrip("0")`,
    `rjust(5, "0")`, and the code-point order Python uses for `<` on `str`. */
module TimeText {

  /** The number of '0' characters `s` starts with. */
  function LeadingZeros(s: string): (n: nat)
    ensures n <= |s|
    ensures forall i :: 0 <= i < n ==> s[i] == '0'
    ensures n == |s| || s[n] != '0'
  {
    if |s| > 0 && s[0] == '0' then 1 + LeadingZeros(s[1..]) else 0
  }

  /** Python's `s.lstrip("0")`: `s` without its maximal prefix of '0'. */
  function StripZeros(s: string): (r: string)
    ensures |r| <= |s|
    ensures r == s[|s| - |r|..]
    ensures forall i :: 0 <= i < |s| - |r| ==> s[i] == '0'
    ensures r == [] || r[0] != '0'
  {
    s[LeadingZeros(s)..]
  }

  /** `n` copies of '0'. */
  function Zeros(n: nat): (r: string)
    ensures |r| == n
    ensures forall i :: 0 <= i < n ==> r[i] == '0'
  {
    seq(n, _ => '0')
  }

  /** Python's `s.rjust(width, "0")`: `s` left-padded with '0' up to `width`. */
  function PadZeros(s: string, width: nat): (r: string)
    ensures |r| == if |s| >= width then |s| else width
    ensures r[|r| - |s|..] == s
    ensures forall i :: 0 <= i < |r| - |s| ==> r[i] == '0'
  {
    if |s| >= width then s else Zeros(width - |s|) + s
  }

  /** Width of a `strftime("%H:%M")` reading. */
  const ClockWidth: nat := 5

  /** The normalisation `s.lstrip("0").rjust(5, "0")` shared by the scheduler
      and the configuration window. */
  function Normalise(s: string): string {
    PadZeros(StripZeros(s), ClockWidth)
  }

  /** A string is all zeros followed by what `lstrip("0")` keeps. */
  lemma StripSplit(s: string)
    ensures s == Zeros(|s| - |StripZeros(s)|) + StripZeros(s)
  {
    var k := LeadingZeros(s);
    assert s[..k] == Zeros(k);
    assert s == s[..k] + s[k..];
  }

  lemma ZerosAdd(m: nat, n: nat)
    ensures Zeros(m) + Zeros(n) == Zeros(m + n)
  {
  }

  /** Stripping a run of zeros in front of a string with no leading zero
      gives that string back. */
  lemma {:induction false} StripZerosAfterPadding(n: nat, t: string)
    requires t == [] || t[0] != '0'
    ensures StripZeros(Zeros(n) + t) == t
  {
    LeadingZerosOfPadding(n, t);
    assert (Zeros(n) + t)[n..] == t;
  }

  lemma {:induction false} LeadingZerosOfPadding(n: nat, t: string)
    requires t == [] || t[0] != '0'
    ensures LeadingZeros(Zeros(n) + t) == n
  {
    if n == 0 {
      assert Zeros(0) + t == t;
    } else {
      var s := Zeros(n) + t;
      assert s[0] == '0';
      assert s[1..] == Zeros(n - 1) + t;
      LeadingZerosOfPadding(n - 1, t);
    }
  }

  /** A zero-padded "HH:MM" reading, indeed every five-character string, is
      left unchanged by the normalisation. */
  lemma NormaliseKeepsClockWidth(s: string)
    requires |s| == ClockWidth
    ensures Normalise(s) == s
  {
    StripSplit(s);
  }

  /** Every string of at most five characters normalises to itself padded
      with zeros to five characters. */
  lemma NormaliseShort(s: string)
    requires |s| <= ClockWidth
    ensures Normalise(s) == Zeros(ClockWidth - |s|) + s
  {
    var t := StripZeros(s);
    var k := |s| - |t|;
    StripSplit(s);
    PadToClockWidth(t);
    ZerosAdd(ClockWidth - |s|, k);
    assert Zeros(ClockWidth - |s|) + (Zeros(k) + t) == (Zeros(ClockWidth - |s|) + Zeros(k)) + t;
  }

  lemma PadToClockWidth(t: string)
    requires |t| <= ClockWidth
    ensures PadZeros(t, ClockWidth) == Zeros(ClockWidth - |t|) + t
  {
    if |t| == ClockWidth {
      assert Zeros(0) + t == t;
    }
  }

  /** Normalising twice is normalising once. */
  lemma NormaliseIdempotent(s: string)
    ensures Normalise(Normalise(s)) == Normalise(s)
  {
    var t := StripZeros(s);
    if |t| < ClockWidth {
      StripZerosAfterPadding(ClockWidth - |t|, t);
    }
  }

  /** Python's `a < b` on `str`: lexicographic order of code points, where a
      proper prefix is smaller. */
  predicate Less(a: string, b: string) {
    if |a| == 0 then |b| > 0
    else if |b| == 0 then false
    else if a[0] != b[0] then a[0] < b[0]
    else Less(a[1..], b[1..])
  }

  /** Python's `a <= b` on `str`. */
  predicate LessEq(a: string, b: string) {
    a == b || Less(a, b)
  }

  /** Reference reading of Python's string order: at the first position where
      the strings differ the smaller code point wins; a proper prefix is
      smaller. */
  ghost predicate FirstDifferenceLess(a: string, b: string) {
    exists k :: 0 <= k <= |a| && k <= |b| && a[..k] == b[..k] &&
      ((k == |a| && k < |b|) || (k < |a| && k < |b| && a[k] < b[k]))
  }

  lemma {:induction false} LessHasFirstDifference(a: string, b: string)
    requires Less(a, b)
    ensures FirstDifferenceLess(a, b)
  {
    if |a| == 0 || a[0] != b[0] {
      assert a[..0] == b[..0];
    } else {
      LessHasFirstDifference(a[1..], b[1..]);
      var k :| 0 <= k <= |a[1..]| && k <= |b[1..]| && a[1..][..k] == b[1..][..k] &&
        ((k == |a[1..]| && k < |b[1..]|) || (k < |a[1..]| && k < |b[1..]| && a[1..][k] < b[1..][k]));
      assert a[..k + 1] == [a[0]] + a[1..][..k];
      assert b[..k + 1] == [b[0]] + b[1..][..k];
    }
  }

  lemma {:induction false} FirstDifferenceGivesLess(a: string, b: string)
    requires FirstDifferenceLess(a, b)
    ensures Less(a, b)
  {
    var k :| 0 <= k <= |a| && k <= |b| && a[..k] == b[..k] &&
      ((k == |a| && k < |b|) || (k < |a| && k < |b| && a[k] < b[k]));
    if k > 0 {
      assert a[0] == a[..k][0] == b[..k][0] == b[0];
      assert a[1..][..k - 1] == a[..k][1..];
      assert b[1..][..k - 1] == b[..k][1..];
      FirstDifferenceGivesLess(a[1..], b[1..]);
    }
  }

  /** `Less` is exactly the first-difference order. */
  lemma LessIsFirstDifference(a: string, b: string)
    ensures Less(a, b) <==> FirstDifferenceLess(a, b)
  {
    if Less(a, b) {
      LessHasFirstDifference(a, b);
    }
    if FirstDifferenceLess(a, b) {
      FirstDifferenceGivesLess(a, b);
    }
  }

  lemma {:induction false} LessIrreflexive(a: string)
    ensures !Less(a, a)
  {
    if |a| > 0 {
      LessIrreflexive(a[1..]);
    }
  }

  lemma {:induction false} LessTransitive(a: string, b: string, c: string)
    requires Less(a, b) && Less(b, c)
    ensures Less(a, c)
  {
    if |a| > 0 && |b| > 0 && |c| > 0 && a[0] == b[0] && b[0] == c[0] {
      LessTransitive(a[1..], b[1..], c[1..]);
    }
  }

  lemma {:induction false} LessTotal(a: string, b: string)
    ensures Less(a, b) || a == b || Less(b, a)
  {
    if |a| > 0 && |b| > 0 && a[0] == b[0] {
      LessTotal(a[1..], b[1..]);
      if a[1..] == b[1..] {
        assert a == [a[0]] + a[1..] && b == [b[0]] + b[1..];
      }
    }
  }

  lemma LessAsymmetric(a: string, b: string)
    requires Less(a, b)
    ensures !Less(b, a)
  {
    if Less(b, a) {
      LessTransitive(a, b, a);
      LessIrreflexive(a);
    }
  }
}
